=== FILE: README.md ===
# Graphiti graph engine, modelled in Dafny

This project models the C runtime of the Graphiti language
(`Graphiti/semantics/graph.c`, with the layouts of `graph.h`). The runtime
contains three singly linked containers, and each one is modelled as an
immutable Dafny value with one pure function per C routine:

- **Label maps.** `struct map` is an association list from string keys to
  string values. Keys are matched by content, as `strcmp` does. `is_equal`
  compares values by address, so a C string is modelled as
  `Str(ref, text)`: its address and its characters. This is the `LabelMap`
  module.
- **The graph.** The graph is an ordered vertex list plus the two stored
  counters `vertex_count` and `edge_count`.
  - A vertex's label is a map pointer (`MapRef`). `get_vertex` finds a
    label by pointer identity, and always returns the first vertex holding
    it.
  - Every vertex gets a fresh address (`VertexId`) when `add_vertex` runs.
  - An edge is stored in its source vertex's list as a target address plus
    a payload string: the text of a non-NULL `char *` (see "## Left out").

  The graph is split across four modules:
  - `GraphEngine`: the vertex operations;
  - `GraphEdges`: the edge operations and `modify_graph`;
  - `GraphAlgebra`: `intersection_graph`, `union_graph` and `add`;
  - `GraphQueries`: `_get_edges`, `get_edge_neighbors` and
    `get_all_vertices`.
- **Generic lists.** `struct list` is a stored `size` plus the chain of
  `void *` data. The element type becomes a type parameter. This is the
  `GenericList` module.
- **String helpers.** `CStrings` models `myAtoi`, `get_char`,
  `concat_string` and `str_comp`. A C string there is the sequence of its
  bytes before the terminator, each written as the `char` with that code, so
  indices count bytes as `strlen` does.

Each reachable graph satisfies the invariant `WellFormed`:
- `vertex_count` equals the number of vertices;
- vertex addresses are distinct and were already allocated;
- a vertex has at most one edge to each target (this is what `_add_edge`'s
  duplicate check ensures);
- `edge_count` is at least the number of vertices that have edges.

Every graph operation preserves `WellFormed`.

`Scenarios` replays the graph part of the test driver
(`Graphiti/semantics/test.c`). It also pins down two behaviours that are
easy to miss:
- `edge_count` counts source vertices whose list was empty, not edges;
- `delete_vertex` leaves dangling edges behind.

NULL is `Option.None`.
- Label arguments are `Option<MapRef>`, because the C code tests them.
- Graph arguments are `Option<Graph>` only in the set operations, which
  return NULL.
- Where the C code dereferences NULL, or memory that was freed, the
  operation takes a precondition instead. Each such case has its own
  precondition:
  - `delete_edge` on a vertex without edges;
  - `_get_edges` or `get_edge_neighbors` on an unknown label;
  - `get_edge_neighbors` over a dangling edge;
  - `myAtoi` on a non-digit.

Where `graph.h` and `graph.c` disagree, the model follows `graph.c`:
- `_modify_edge` rewrites the payload in place. It does not delete and
  re-create the edge.
- `delete_vertex` returns nothing.

Behaviour of `graph.c` that the model keeps, although a reader might expect
otherwise:
- `edge_count` rises only when a vertex gets its first edge, and never goes
  down.
- `delete_vertex` does not remove edges pointing at the deleted vertex. In
  its cleanup walk, the branch that tests `to` only advances a local cursor,
  and the branch that unlinks tests `from`, which is always the owning vertex
  and so never the deleted one.

## Model

| member | source | states |
|---|---|---|
| LabelMap.MakeMap | Graphiti/semantics/graph.c:17-27 | a new map is valid and contains no key |
| LabelMap.ContainsKey | Graphiti/semantics/graph.c:80-92 | true exactly when some entry's key has the same characters as `key` |
| LabelMap.ContainsValue | Graphiti/semantics/graph.c:98-110 | true exactly when some entry's value has the same characters as `value` |
| LabelMap.KeyIsStrComp | Graphiti/semantics/graph.c:80-92 | on C strings, the key test of the map scans agrees with `str_comp` returning 1 |
| LabelMap.MapGet | Graphiti/semantics/graph.c:62-74 | NULL exactly when the key is absent; otherwise the value of an entry with that key, and on a valid map the value of every such entry |
| LabelMap.Put | Graphiti/semantics/graph.c:33-57 | returns 0 and leaves the map unchanged when the key is present; otherwise prepends the pair, increments `size`, returns 1, and `map_get` of the key gives the value; other keys' lookups are unchanged; validity is preserved |
| LabelMap.RemoveNode | Graphiti/semantics/graph.c:117-147 | returns 0 with no change when the map is empty or the key is absent; otherwise returns 1, decrements `size`, drops one entry, the key is gone afterwards and other keys' lookups are unchanged |
| LabelMap.RemovePreservesLookups | Graphiti/semantics/graph.c:128-145 | unlinking the matching node keeps the map valid, removes the key and leaves every other key's lookup alone |
| LabelMap.IsEqual | Graphiti/semantics/graph.c:152-166 | 1 exactly when the sizes agree and each key of the first map has, in the second, a value at the same address |
| LabelMap.IsEqualReflexive | Graphiti/semantics/graph.c:152-166 | every valid map is equal to itself |
| LabelMap.IsEqualComparesAddresses | Graphiti/semantics/graph.c:98-110 | two maps with equal text values at different addresses both contain that value but are not equal |
| LabelMap.PutThenRemove | Graphiti/semantics/graph.c:33-147 | `put` of a new key followed by `remove_node` of that key restores the map and returns 1 |
| GraphEngine.NewGraph | Graphiti/semantics/graph.c:219-234 | the new graph is well formed, has no labels and both counters are zero |
| GraphEngine.Locate | Graphiti/semantics/graph.c:430-456 | the position of the first vertex whose label pointer is `data`; None for NULL or when no vertex holds it |
| GraphEngine.GetVertex | Graphiti/semantics/graph.c:430-456 | NULL exactly when the label is NULL or no vertex holds it; otherwise the FIRST vertex in list order holding that label pointer |
| GraphEngine.LocateSameVertices | Graphiti/semantics/graph.c:430-456 | a lookup depends only on the vertices' labels, not on their edges |
| GraphEngine.AddVertex | Graphiti/semantics/graph.c:306-339 | NULL is a no-op; otherwise one edgeless vertex with a fresh address is appended, with no de-duplication, and `vertex_count` rises by one; `edge_count` is unchanged and well-formedness is preserved |
| GraphEngine.SweepAfter | Graphiti/semantics/graph.c:389-415 | the inner cleanup walk returns the rest of the row unchanged, because an edge's `from` is always the owning vertex |
| GraphEngine.SweepRow | Graphiti/semantics/graph.c:396-410 | the cleanup of any vertex other than the deleted one returns it unchanged, whether or not its first edge targets the deleted vertex |
| GraphEngine.SweepAll | Graphiti/semantics/graph.c:391-415 | when no remaining vertex is the deleted one, the cleanup loop returns them all unchanged, so no edge is unlinked |
| GraphEngine.DeleteVertex | Graphiti/semantics/graph.c:341-422 | an empty graph or unknown label is a no-op; otherwise exactly the first vertex with the label is removed, the others stay in order with their edge lists, `vertex_count` drops by one, and `edge_count` is unchanged |
| GraphEngine.ModifyVertex | Graphiti/semantics/graph.c:461-484 | NULL labels are a no-op; otherwise the vertex list is the old one without the first vertex holding the old label (when there is one), the others in order with their edges, followed by a fresh edgeless vertex for the new label; `vertex_count` follows and `edge_count` is kept |
| GraphEdges.FindEdge | Graphiti/semantics/graph.c:583-618 | true exactly when both labels have vertices and `v`'s edge list has an edge to `f`'s vertex |
| GraphEdges.EnsureVertex | Graphiti/semantics/graph.c:505-506 | afterwards the label has a vertex; existing vertices stay in front; if the label already had a vertex, nothing changes; otherwise exactly that label is appended and `vertex_count` rises by one |
| GraphEdges.Endpoints | Graphiti/semantics/graph.c:505-506 | afterwards both labels have vertices; the label list gains exactly the missing endpoints, `v` before `f` (once when they are the same label); `vertex_count` rises by the number added and `edge_count` is kept |
| GraphEdges.EndpointsFindEdge | Graphiti/semantics/graph.c:505-512 | adding the missing endpoint vertices leaves `_find_edge(v, f)` for the same pair as it was |
| GraphEdges.AddEdgeWithData | Graphiti/semantics/graph.c:491-536 | NULL labels are a no-op; well-formedness (no duplicate edge per target) is preserved |
| GraphEdges.AddEdgeLinks | Graphiti/semantics/graph.c:491-536 | afterwards both endpoints have vertices and the edge is found; an existing edge means nothing changed |
| GraphEdges.AppendEdge | Graphiti/semantics/graph.c:512-529 | linking after the last edge: the row gets the edge at its end, no other row or vertex changes, and `edge_count` rises exactly when the row was empty |
| GraphEdges.LinkEdge | Graphiti/semantics/graph.c:509-529 | with both endpoints present, `v`'s row gets the edge to `f`'s vertex carrying `data` at its end, the vertices stay, `edge_count` rises exactly when the row was empty, and a missing edge keeps the graph well formed |
| GraphEdges.AddEdgeAppends | Graphiti/semantics/graph.c:512-529 | a new edge goes last in `v`'s list, points at `f`'s vertex and carries `data` |
| GraphEdges.AddEdgeCount | Graphiti/semantics/graph.c:519-529 | `edge_count` rises by one exactly when a new edge is linked into an empty list, and is otherwise unchanged |
| GraphEdges.AddEdgeKeepsLabels | Graphiti/semantics/graph.c:491-536 | the label list afterwards is the old one followed by each endpoint that had no vertex, `v` before `f`, each once; `vertex_count` rises by the number appended |
| GraphEdges.LinkEdgeLabels | Graphiti/semantics/graph.c:509-529 | linking an edge keeps the label list and `vertex_count` |
| GraphEdges.AddEdgeKeepsOtherRows | Graphiti/semantics/graph.c:491-536 | no row but `v`'s changes |
| GraphEdges.AddEdge | Graphiti/semantics/graph.c:542-544 | the edge exists afterwards; a new edge carries the empty payload |
| GraphEdges.AddWeightedEdge | Graphiti/semantics/graph.c:538-540 | the edge exists afterwards; a new edge carries the given payload |
| GraphEdges.DropLaterEdge | Graphiti/semantics/graph.c:569-579 | the walk keeps the head; with no later edge to `fid` the row is unchanged; otherwise exactly the first later edge to `fid` is unlinked and the rest keep their order |
| GraphEdges.DropLaterEdgeSpec | Graphiti/semantics/graph.c:570-579 | on a row with distinct targets, the walk removes the edge to `f` exactly when it exists and is not the head, keeps every other edge in order, and the result is the row without that edge |
| GraphEdges.DeleteEdge | Graphiti/semantics/graph.c:548-581 | requires `v` to have an edge when both labels are located; keeps the vertices, `edge_count` and well-formedness |
| GraphEdges.DeleteEdgeNoop | Graphiti/semantics/graph.c:548-581 | a missing edge, or the head edge, is left in place and the graph is unchanged |
| GraphEdges.DeleteEdgeRemoves | Graphiti/semantics/graph.c:570-579 | a non-head edge is no longer found, the list shrinks by one, the head stays first, and the other edges survive |
| GraphEdges.DeleteEdgeUnlinks | Graphiti/semantics/graph.c:570-579 | when a later edge of `v` points at `f`'s vertex, `v`'s list afterwards is the old one with exactly that edge unlinked, the others in order |
| GraphEdges.DeleteEdgeKeepsOtherRows | Graphiti/semantics/graph.c:548-581 | no row but `v`'s changes |
| GraphEdges.ModifyEdge | Graphiti/semantics/graph.c:620-654 | keeps the vertices, `edge_count` and well-formedness |
| GraphEdges.ModifyEdgeNoop | Graphiti/semantics/graph.c:620-654 | a missing edge leaves the graph unchanged |
| GraphEdges.ModifyEdgeSets | Graphiti/semantics/graph.c:643-651 | the found edge gets the payload `data`, every edge keeps its target, and edges to other vertices keep their payloads |
| GraphEdges.ModifyEdgeKeepsOtherRows | Graphiti/semantics/graph.c:620-654 | no row but `v`'s changes |
| GraphEdges.ModifyGraph | Graphiti/semantics/graph.c:274-304 | `d == 0` with a target leaves the target with a vertex, and with a NULL `a` only appends the target's label when it had no vertex; `d == 0` with both labels is `_modify_edge` when `_find_edge` reports the edge and `_add_edge` otherwise, with a NULL payload read as `""`; `d == 0` without target is `add_vertex`; `d != 0` is `delete_edge` with a target and `delete_vertex` without one; well-formedness is preserved |
| GraphEdges.ModifyGraphLinks | Graphiti/semantics/graph.c:277-291 | with `d == 0` and both labels, afterwards both have vertices and exactly one edge `a -> b` carries `w`, or `""` when `w` is NULL |
| GraphEdges.ModifyGraphModifies | Graphiti/semantics/graph.c:283-290 | on an existing edge the payload is rewritten and the edge stays findable |
| GraphAlgebra.BuiltWellFormed | Graphiti/semantics/graph.c:219-339 | a graph built by `new_graph` and `add_vertex` alone is well formed |
| GraphAlgebra.AddEach | Graphiti/semantics/graph.c:713-716 | adding the labels one by one appends them, in order, to the label list |
| GraphAlgebra.AddShared | Graphiti/semantics/graph.c:675-686 | the loop adds exactly the labels that identify a vertex of `h`, in order |
| GraphAlgebra.AddMissing | Graphiti/semantics/graph.c:718-724 | the loop appends the labels not yet present, by reference, in order |
| GraphAlgebra.MissingCovers | Graphiti/semantics/graph.c:718-724 | after the loop every label of `h` is present |
| GraphAlgebra.MissingNew | Graphiti/semantics/graph.c:718-724 | every label added is a label of `h` that was not present |
| GraphAlgebra.MissingDistinct | Graphiti/semantics/graph.c:718-724 | no label is added twice |
| GraphAlgebra.Intersection | Graphiti/semantics/graph.c:660-689 | NULL exactly when an input is NULL; otherwise a fresh, edgeless, well-formed graph |
| GraphAlgebra.Union | Graphiti/semantics/graph.c:695-727 | NULL exactly when an input is NULL; otherwise a fresh, edgeless, well-formed graph |
| GraphAlgebra.Add | Graphiti/semantics/graph.c:732-761 | NULL exactly when an input is NULL; otherwise a fresh, edgeless, well-formed graph |
| GraphAlgebra.AddLabels | Graphiti/semantics/graph.c:732-761 | lists `g`'s labels then `h`'s, and the vertex counts add up |
| GraphAlgebra.IntersectionLabels | Graphiti/semantics/graph.c:660-689 | lists `g`'s labels that identify a vertex of `h`, in `g`'s order; a label is present exactly when both graphs hold it |
| GraphAlgebra.UnionLists | Graphiti/semantics/graph.c:695-727 | lists all of `g`'s labels, then each of `h`'s labels not already present |
| GraphAlgebra.MissingMembers | Graphiti/semantics/graph.c:718-724 | the labels present after the loop are exactly those of either list |
| GraphAlgebra.UnionLabels | Graphiti/semantics/graph.c:695-727 | a label is present exactly when either graph holds it |
| GraphAlgebra.UnionNoDuplicates | Graphiti/semantics/graph.c:695-727 | the union of a graph without repeated labels has no repeated labels |
| GraphAlgebra.IntersectionWithinUnion | Graphiti/semantics/graph.c:660-727 | every label of the intersection is a label of the union |
| GraphQueries.LabelAt | Graphiti/semantics/graph.c:806-809 | `edge->to->data` is the label of the live vertex at that address, or None when no vertex has it |
| GraphQueries.GetEdges | Graphiti/semantics/graph.c:767-787 | a valid list of the payloads of `v`'s edges, one per edge, in list order |
| GraphQueries.GetEdgeNeighbors | Graphiti/semantics/graph.c:792-812 | a valid list of the labels of `v`'s edge targets, one per edge, in list order |
| GraphQueries.GetAllVertices | Graphiti/semantics/graph.c:814-827 | the labels of all vertices in vertex-list order; under the invariant its size is `vertex_count` |
| GraphQueries.GetEdgesListsPayload | Graphiti/semantics/graph.c:767-787 | the payload of every edge `_find_edge` reports is in `_get_edges` |
| GraphQueries.GetEdgesAfterAddEdge | Graphiti/semantics/graph.c:491-536 | a new edge added by `_add_edge` appears last in `_get_edges` with its payload |
| GraphQueries.NeighborIsEdge | Graphiti/semantics/graph.c:806-809 | with distinct labels, every label reached through `v`'s edges is the target of an edge `_find_edge` reports |
| GraphQueries.EdgeIsNeighbor | Graphiti/semantics/graph.c:806-809 | with distinct addresses, the target of every edge `_find_edge` reports is among the labels reached through `v`'s edges |
| GraphQueries.NeighborsMatchFindEdge | Graphiti/semantics/graph.c:583-618 | on a well-formed graph with distinct labels, `x` is a neighbour of `v` exactly when `_find_edge(v, x)` is 1 |
| GraphQueries.AllVerticesAfterDelete | Graphiti/semantics/graph.c:341-422 | `delete_vertex` drops exactly that vertex's label from `get_all_vertices` |
| GraphQueries.AddThenDeleteVertex | Graphiti/semantics/graph.c:306-422 | `add_vertex` of a new label then `delete_vertex` of it restores the vertex list |
| GenericList.MakeList | Graphiti/semantics/graph.c:957-967 | an empty, valid list |
| GenericList.Size | Graphiti/semantics/graph.c:972-975 | on a valid list, the number of elements |
| GenericList.ListGet | Graphiti/semantics/graph.c:980-993 | NULL exactly when the index is outside `[0, size)`; otherwise the element at that index |
| GenericList.Set | Graphiti/semantics/graph.c:1000-1014 | returns 1 and stores the data exactly when the index is valid; otherwise returns 0 with no change; other indices are unchanged |
| GenericList.AddHead | Graphiti/semantics/graph.c:1020-1031 | returns 1; the data is first, followed by the old list, and `size` grows by one |
| GenericList.AddTail | Graphiti/semantics/graph.c:1037-1061 | returns 1; the old list is followed by the data, and `size` grows by one |
| GenericList.RemoveHead | Graphiti/semantics/graph.c:1066-1077 | NULL with no change on an empty list; otherwise returns the head, removes it and shrinks `size` |
| GenericList.RemoveTail | Graphiti/semantics/graph.c:1082-1105 | NULL with no change on an empty list; otherwise returns the last element, removes it and shrinks `size` |
| GenericList.AddAllTail | Graphiti/semantics/graph.c:1037-1061 | repeated `add_tail` appends the elements in order and grows `size` by their number |
| GenericList.Concat | Graphiti/semantics/graph.c:1134-1148 | a new valid list holding `a`'s elements followed by `b`'s |
| GenericList.AddTailThenRemoveTail | Graphiti/semantics/graph.c:1037-1105 | `remove_tail` after `add_tail` returns the element and the original list |
| GenericList.AddHeadThenRemoveHead | Graphiti/semantics/graph.c:1020-1077 | `remove_head` after `add_head` returns the element and the original list |
| GenericList.ConcatGet | Graphiti/semantics/graph.c:1134-1148 | index `i` of a concatenation reads `a` below `a`'s length and `b` after it |
| GenericList.FiveAddsTwoRemoves | Graphiti/semantics/test.c:350-379 | five `add_tail` then two `remove_head` give back 1 and 2 and leave `[3, 4, 5]` with size 3 |
| CStrings.MyAtoi | Graphiti/semantics/graph.c:1327-1358 | on a digit string with an optional leading `-`, returns the sign times the decimal value of the digits |
| CStrings.AtoiRendered | Graphiti/semantics/graph.c:1327-1358 | reading any integer's decimal rendering gives back that integer |
| CStrings.GetChar | Graphiti/semantics/graph.c:1382-1396 | NULL exactly unless `0 <= idx <= strlen`; the one-character string at `idx`, or the empty string at the terminator |
| CStrings.CharsRebuild | Graphiti/semantics/graph.c:1382-1396 | concatenating `get_char` over every index, the terminator included, rebuilds the string |
| CStrings.ConcatString | Graphiti/semantics/graph.c:1360-1366 | `a` followed by `b`, still NUL-free |
| CStrings.GetCharConcat | Graphiti/semantics/graph.c:1360-1396 | past `a`'s length, `get_char` on the concatenation reads `b` |
| CStrings.StrComp | Graphiti/semantics/graph.c:1373-1378 | 1 exactly when the two strings are equal, else 0 |
| Scenarios.DriverScenario | Graphiti/semantics/test.c:294-336 | after three `add_vertex` and the edges "five" and "six", the three queries read back `[e1, e2, e3]`, `["five", "six"]` and `[e2, e3]`; `edge_count` is 1 |
| Scenarios.DriverGraphRows | Graphiti/semantics/test.c:294-307 | the driver's graph has e1's two edges in order, and `edge_count` is 1 |
| Scenarios.DuplicateEdgeIgnored | Graphiti/semantics/graph.c:512-534 | adding the edge e1 -> e2 a second time changes nothing, and the first payload stays |
| Scenarios.DeleteLeavesDanglingEdge | Graphiti/semantics/graph.c:389-415 | deleting e2 keeps e1's edge to it, which now points at no vertex |

## Left out

- Printing (`printm`, `printg`, `print_vertex`, `_print_edge`, `printl`) and the `printf` diagnostics on NULL arguments. They are output only; the NULL cases are modelled as no-ops or as preconditions.
- Freeing memory (`free_map`, `_clean_graph`, `_free_vertex`, `_free_edge`, `_free_all_vertex`, `_free_adjacency_row`) and every malloc-failure branch: they concern allocation and ownership, not the contents of the containers.
- Typed list wrappers (`*_int`, `*_dec`, `*_str`, `*_map`). They are casts over `void *`, and the `_dec` ones use doubles.
- `random_int` (randomness), `myItoa` (a `sprintf` wrapper) and `length` (a `strlen` wrapper).
- NULL graph pointers outside the set operations. Every other operation takes a graph value and never sees NULL.
- Address reuse after `free`. The model never reuses an address, so a dangling edge stays dangling instead of pointing at a later vertex.
- GraphEdges.AddEdgeWithData: payloads are modelled as non-NULL text values. A NULL `data` passed to `_add_edge`, which `_new_edge` stores and `_get_edges` later adds to its list, is not represented; nor is the sharing of the caller's buffer, since C keeps the pointer and does not copy the text.
- GraphEdges.AddWeightedEdge: the same holds for `add_wedge(g, v, NULL, f)`: its NULL payload is not represented. Only `modify_graph` turns a NULL payload into `""`, and that is modelled.
- GraphEdges.ModifyEdge: a NULL `data` written by `_modify_edge` is not represented, nor is the sharing of the caller's buffer.
- LabelMap.Str: `strcmp` stops at the first NUL, while the model compares whole texts. The two agree on texts without `'\0'`, which is all a C string can hold, but `Str` does not forbid a `'\0'` in its text.
- CStrings.GetChar: no character encoding is decoded. A string is its bytes, so a character spread over several bytes by UTF-8 is read one byte per index, as in C.
- The ordering `strcmp` reports. Only its "equal or not" outcome is used anywhere in `graph.c`.
- CStrings.MyAtoi: returns the mathematical value rather than a 32-bit `int`, so overflow on long digit strings is not modelled.
- CStrings.MyAtoi: the source returns a pointer to a fresh `int`; the model returns the value.
- GraphQueries.GetEdges: requires the label to have a vertex, because the C code dereferences the NULL `get_vertex` result otherwise.
- GraphQueries.GetEdgeNeighbors: requires the label to have a vertex and every edge target to be live, because the C code dereferences both.
- GraphEdges.DeleteEdge: requires a non-empty edge list when both labels are located, because the C walk starts by dereferencing the head.
- GraphAlgebra.Union: the membership and order lemmas state the label list, but not which duplicate vertex of `g` a repeated label came from; vertices are fresh and edgeless anyway.

=== FILE: algebra.dfy ===
/** The set operations of graph.c: intersection_graph, union_graph and add.
    Each builds a fresh graph with new_graph and add_vertex, so the result has
    no edges. Labels are compared by reference (get_vertex), and a NULL input
    graph yields NULL. */
module GraphAlgebra {
  import opened Support
  import opened GraphEngine

  /** The shape of every graph new_graph and add_vertex alone build: vertex
      `k` is the `k`-th one allocated and has no edges, `vertex_count` counts
      the vertices and `edge_count` is still zero. */
  predicate Built(g: Graph) {
    && g.vertexCount == |g.vertices| && g.nextId == |g.vertices| && g.edgeCount == 0
    && forall k :: 0 <= k < |g.vertices| ==> g.vertices[k].id == k && g.vertices[k].edges == []
  }

  lemma {:induction false} NonEmptyRowsEdgeless(vs: seq<Vertex>)
    requires forall k :: 0 <= k < |vs| ==> vs[k].edges == []
    ensures NonEmptyRows(vs) == 0
  {
    if vs != [] {
      NonEmptyRowsEdgeless(vs[1..]);
    }
  }

  /** A built graph satisfies the engine's invariant. */
  lemma BuiltWellFormed(g: Graph)
    requires Built(g)
    ensures WellFormed(g)
  {
    NonEmptyRowsEdgeless(g.vertices);
  }

  /** The label test of the intersection loop: `get_vertex(h, d)` is not NULL. */
  function InGraph(h: Graph): MapRef -> bool {
    (x: MapRef) => GetVertex(h, Some(x)).Some?
  }

  /** add_vertex of each label of `xs`, in order: the loops of union_graph and
      add over a vertex list. */
  function AddEach(acc: Graph, xs: seq<MapRef>): (r: Graph)
    requires Built(acc)
    ensures Built(r)
    ensures Labels(r) == Labels(acc) + xs
    decreases |xs|
  {
    if xs == [] then acc
    else
      var next := AddVertex(acc, Some(xs[0]));
      var r := AddEach(next, xs[1..]);
      ConcatAssoc(Labels(acc), [xs[0]], xs[1..]);
      r
  }

  /** The loop of intersection_graph: add_vertex of each label of `xs` that
      identifies a vertex of `h`. */
  function AddShared(acc: Graph, xs: seq<MapRef>, h: Graph): (r: Graph)
    requires Built(acc)
    ensures Built(r)
    ensures Labels(r) == Labels(acc) + Filter(xs, InGraph(h))
    decreases |xs|
  {
    if xs == [] then acc
    else if InGraph(h)(xs[0]) then
      var next := AddVertex(acc, Some(xs[0]));
      var r := AddShared(next, xs[1..], h);
      assert Filter(xs, InGraph(h)) == [xs[0]] + Filter(xs[1..], InGraph(h));
      ConcatAssoc(Labels(acc), [xs[0]], Filter(xs[1..], InGraph(h)));
      r
    else AddShared(acc, xs[1..], h)
  }

  /** The labels the second loop of union_graph adds when `seen` are the labels
      already present: each label of `xs` not yet present, at its first occurrence. */
  function Missing(seen: seq<MapRef>, xs: seq<MapRef>): seq<MapRef>
    decreases |xs|
  {
    if xs == [] then []
    else if xs[0] in seen then Missing(seen, xs[1..])
    else [xs[0]] + Missing(seen + [xs[0]], xs[1..])
  }

  /** The second loop of union_graph: add_vertex of each label of `xs` that no
      vertex of the graph being built holds yet (`get_vertex(i, d)` is NULL). */
  function AddMissing(acc: Graph, xs: seq<MapRef>): (r: Graph)
    requires Built(acc)
    ensures Built(r)
    ensures Labels(r) == Labels(acc) + Missing(Labels(acc), xs)
    decreases |xs|
  {
    if xs == [] then acc
    else if GetVertex(acc, Some(xs[0])).None? then
      var next := AddVertex(acc, Some(xs[0]));
      var r := AddMissing(next, xs[1..]);
      ConcatAssoc(Labels(acc), [xs[0]], Missing(Labels(next), xs[1..]));
      r
    else AddMissing(acc, xs[1..])
  }

  /** After the loop every label of `xs` is present. */
  lemma {:induction false} MissingCovers(seen: seq<MapRef>, xs: seq<MapRef>)
    ensures forall k :: 0 <= k < |xs| ==> xs[k] in seen + Missing(seen, xs)
    decreases |xs|
  {
    if xs != [] {
      var x := xs[0];
      var seen' := if x in seen then seen else seen + [x];
      MissingCovers(seen', xs[1..]);
      assert seen + Missing(seen, xs) == seen' + Missing(seen', xs[1..]) by {
        if x !in seen {
          ConcatAssoc(seen, [x], Missing(seen', xs[1..]));
        }
      }
      forall k | 0 <= k < |xs|
        ensures xs[k] in seen + Missing(seen, xs)
      {
        if k > 0 {
          assert xs[k] == xs[1..][k - 1];
        }
      }
    }
  }

  /** Every added label is a label of `xs` that was not present. */
  lemma {:induction false} MissingNew(seen: seq<MapRef>, xs: seq<MapRef>)
    ensures forall k :: 0 <= k < |Missing(seen, xs)| ==> Missing(seen, xs)[k] in xs && Missing(seen, xs)[k] !in seen
    decreases |xs|
  {
    if xs != [] {
      var x := xs[0];
      var seen' := if x in seen then seen else seen + [x];
      MissingNew(seen', xs[1..]);
      var m := Missing(seen, xs);
      var m' := Missing(seen', xs[1..]);
      forall k | 0 <= k < |m|
        ensures m[k] in xs && m[k] !in seen
      {
        if x !in seen && k == 0 {
          assert m[0] == x;
        } else {
          var k' := if x in seen then k else k - 1;
          assert m[k] == m'[k'];
          assert m'[k'] in xs[1..];
        }
      }
    }
  }

  /** No label is added twice. */
  lemma {:induction false} MissingDistinct(seen: seq<MapRef>, xs: seq<MapRef>)
    ensures NoDuplicates(Missing(seen, xs))
    decreases |xs|
  {
    if xs != [] {
      var x := xs[0];
      var seen' := if x in seen then seen else seen + [x];
      MissingDistinct(seen', xs[1..]);
      MissingNew(seen', xs[1..]);
      var m := Missing(seen, xs);
      var m' := Missing(seen', xs[1..]);
      if x !in seen {
        forall i, j | 0 <= i < j < |m|
          ensures m[i] != m[j]
        {
          assert m[j] == m'[j - 1];
          if i > 0 {
            assert m[i] == m'[i - 1];
          } else {
            assert m'[j - 1] !in seen';
          }
        }
      }
    }
  }

  /** intersection_graph: NULL when either graph is NULL; an empty graph when
      either has `vertex_count` zero; otherwise the labels of `g`, in order, that
      identify a vertex of `h` (repeats in `g` are kept). */
  function Intersection(g: Option<Graph>, h: Option<Graph>): (r: Option<Graph>)
    ensures r.None? <==> g.None? || h.None?
    ensures r.Some? ==> Built(r.value) && WellFormed(r.value)
  {
    if g.None? || h.None? then None
    else if g.value.vertexCount == 0 || h.value.vertexCount == 0 then Some(NewGraph())
    else
      var r := AddShared(NewGraph(), Labels(g.value), h.value);
      BuiltWellFormed(r);
      Some(r)
  }

  /** union_graph: NULL when either graph is NULL; an empty graph when both have
      `vertex_count` zero; otherwise every label of `g`, in order, then the
      labels of `h` not yet present. */
  function Union(g: Option<Graph>, h: Option<Graph>): (r: Option<Graph>)
    ensures r.None? <==> g.None? || h.None?
    ensures r.Some? ==> Built(r.value) && WellFormed(r.value)
  {
    if g.None? || h.None? then None
    else if g.value.vertexCount == 0 && h.value.vertexCount == 0 then Some(NewGraph())
    else
      var r := AddMissing(AddEach(NewGraph(), Labels(g.value)), Labels(h.value));
      BuiltWellFormed(r);
      Some(r)
  }

  /** add: NULL when either graph is NULL; an empty graph when both have
      `vertex_count` zero; otherwise the labels of `g` followed by those of `h`. */
  function Add(g: Option<Graph>, h: Option<Graph>): (r: Option<Graph>)
    ensures r.None? <==> g.None? || h.None?
    ensures r.Some? ==> Built(r.value) && WellFormed(r.value)
  {
    if g.None? || h.None? then None
    else if g.value.vertexCount == 0 && h.value.vertexCount == 0 then Some(NewGraph())
    else
      var r := AddEach(NewGraph(), Labels(g.value) + Labels(h.value));
      BuiltWellFormed(r);
      Some(r)
  }

  /** The labels of `add` are those of `g` followed by those of `h`, one vertex
      per input vertex. */
  lemma AddLabels(g: Graph, h: Graph)
    requires g.vertexCount == |g.vertices| && h.vertexCount == |h.vertices|
    ensures Labels(Add(Some(g), Some(h)).value) == Labels(g) + Labels(h)
    ensures Add(Some(g), Some(h)).value.vertexCount == g.vertexCount + h.vertexCount
  {
  }

  /** A label is in the intersection exactly when both graphs hold it, and the
      intersection lists the labels of `g` in `g`'s order. */
  lemma IntersectionLabels(g: Graph, h: Graph, x: MapRef)
    requires g.vertexCount == |g.vertices| && h.vertexCount == |h.vertices|
    ensures Labels(Intersection(Some(g), Some(h)).value) == Filter(Labels(g), InGraph(h))
    ensures x in Labels(Intersection(Some(g), Some(h)).value) <==> x in Labels(g) && x in Labels(h)
  {
    var f := Filter(Labels(g), InGraph(h));
    if h.vertexCount == 0 && f != [] {
      assert InGraph(h)(f[0]);
    }
    if x in f {
      var i :| 0 <= i < |f| && f[i] == x;
      assert InGraph(h)(x);
    }
    if x in Labels(g) && x in Labels(h) {
      var i :| 0 <= i < |Labels(g)| && Labels(g)[i] == x;
      assert InGraph(h)(Labels(g)[i]);
    }
  }

  /** The union lists every label of `g`, in order, then the labels of `h`
      that are not present yet. */
  lemma UnionLists(g: Graph, h: Graph)
    requires g.vertexCount == |g.vertices| && h.vertexCount == |h.vertices|
    ensures Labels(Union(Some(g), Some(h)).value) == Labels(g) + Missing(Labels(g), Labels(h))
  {
    if g.vertexCount == 0 && h.vertexCount == 0 {
      assert Labels(g) == [] && Labels(h) == [];
      assert Missing(Labels(g), Labels(h)) == [];
    } else {
      var a := AddEach(NewGraph(), Labels(g));
      assert Labels(a) == Labels(g);
    }
  }

  /** `seen` followed by the labels of `xs` it lacks holds exactly the labels of both. */
  lemma MissingMembers(seen: seq<MapRef>, xs: seq<MapRef>, x: MapRef)
    ensures x in seen + Missing(seen, xs) <==> x in seen || x in xs
  {
    var m := Missing(seen, xs);
    var u := seen + m;
    MissingCovers(seen, xs);
    MissingNew(seen, xs);
    if x in u && x !in seen {
      var k :| 0 <= k < |u| && u[k] == x;
      assert m[k - |seen|] == x;
    }
    if x in xs {
      var k :| 0 <= k < |xs| && xs[k] == x;
    }
  }

  /** A label is in the union exactly when either graph holds it. */
  lemma UnionLabels(g: Graph, h: Graph, x: MapRef)
    requires g.vertexCount == |g.vertices| && h.vertexCount == |h.vertices|
    ensures x in Labels(Union(Some(g), Some(h)).value) <==> x in Labels(g) || x in Labels(h)
  {
    UnionLists(g, h);
    MissingMembers(Labels(g), Labels(h), x);
  }

  /** A union of a graph without repeated labels has no repeated labels. */
  lemma UnionNoDuplicates(g: Graph, h: Graph)
    requires g.vertexCount == |g.vertices| && h.vertexCount == |h.vertices|
    requires NoDuplicates(Labels(g))
    ensures NoDuplicates(Labels(Union(Some(g), Some(h)).value))
  {
    UnionLists(g, h);
    MissingNew(Labels(g), Labels(h));
    MissingDistinct(Labels(g), Labels(h));
    NoDuplicatesConcat(Labels(g), Missing(Labels(g), Labels(h)));
  }

  /** Every label of the intersection is a label of the union. */
  lemma IntersectionWithinUnion(g: Graph, h: Graph, x: MapRef)
    requires g.vertexCount == |g.vertices| && h.vertexCount == |h.vertices|
    requires x in Labels(Intersection(Some(g), Some(h)).value)
    ensures x in Labels(Union(Some(g), Some(h)).value)
  {
    IntersectionLabels(g, h, x);
    UnionLabels(g, h, x);
  }
}

=== FILE: cstrings.dfy ===
/** The string helpers at the end of graph.c: myAtoi, get_char, concat_string
    and str_comp. A C string is modelled by the bytes before its terminating
    NUL, each byte written as the `char` with that code (below 256), so a
    well-formed one contains no '\0' and indices count bytes, as `strlen` and
    `s[idx]` do. A character that an encoding spreads over several bytes is
    several elements here. */
module CStrings {
  import opened Support

  /** `s` is the content of a NUL-terminated C string: non-zero bytes. */
  predicate IsCString(s: string) {
    forall i :: 0 <= i < |s| ==> 0 < s[i] as int < 256
  }

  predicate IsDigit(c: char) {
    '0' <= c <= '9'
  }

  function DigitValue(c: char): nat
    requires IsDigit(c)
  {
    c as int - '0' as int
  }

  /** Decimal value of a digit string, most significant digit first. */
  function DigitsValue(d: string): nat
    requires forall i :: 0 <= i < |d| ==> IsDigit(d[i])
  {
    if d == [] then 0 else DigitsValue(d[..|d| - 1]) * 10 + DigitValue(d[|d| - 1])
  }

  /** Index of the first digit: 1 after a leading '-', else 0. */
  function DigitStart(s: string): nat {
    if |s| > 0 && s[0] == '-' then 1 else 0
  }

  /** The inputs on which myAtoi returns a value: an optional '-' and then only digits
      (any other character makes it write through a NULL pointer). */
  predicate AtoiDefined(s: string) {
    forall i :: DigitStart(s) <= i < |s| ==> IsDigit(s[i])
  }

  /** The value myAtoi stores: the sign times the decimal value of the digits. */
  function AtoiValue(s: string): int
    requires AtoiDefined(s)
  {
    (if DigitStart(s) == 1 then -1 else 1) * DigitsValue(s[DigitStart(s)..])
  }

  /** myAtoi: reads an optional '-' and then accumulates digits left to right.
      The C result is an `int`; the model computes the mathematical value. */
  method MyAtoi(s: string) returns (r: int)
    requires AtoiDefined(s)
    ensures r == AtoiValue(s)
    ensures DigitStart(s) == 0 ==> r >= 0
    ensures DigitStart(s) == 1 ==> r <= 0
  {
    var sign := 1;
    var i := 0;
    if |s| > 0 && s[0] == '-' {
      sign := -1;
      i := 1;
    }
    var start := i;
    var res := 0;
    while i < |s|
      invariant start == DigitStart(s) <= i <= |s|
      invariant res == DigitsValue(s[start..i])
    {
      assert s[start..i + 1][..i - start] == s[start..i];
      res := res * 10 + (s[i] as int - '0' as int);
      i := i + 1;
    }
    assert s[start..i] == s[start..];
    r := sign * res;
  }

  /** Decimal rendering of a natural number, the reference for myAtoi's round trip. */
  function Decimal(n: nat): (r: string)
    ensures |r| > 0
    ensures forall i :: 0 <= i < |r| ==> IsDigit(r[i])
  {
    var last := ['0' + (n % 10) as char];
    if n < 10 then last else Decimal(n / 10) + last
  }

  /** Decimal rendering of an integer with a leading '-' for negatives. */
  function Render(n: int): string {
    if n < 0 then "-" + Decimal(-n) else Decimal(n)
  }

  lemma {:induction false} DigitsValueOfDecimal(n: nat)
    ensures DigitsValue(Decimal(n)) == n
    decreases n
  {
    var d := Decimal(n);
    if n >= 10 {
      DigitsValueOfDecimal(n / 10);
      assert d[..|d| - 1] == Decimal(n / 10);
    }
  }

  /** myAtoi inverts decimal rendering: every integer written in decimal reads back as itself. */
  lemma AtoiRendered(n: int)
    ensures AtoiDefined(Render(n))
    ensures AtoiValue(Render(n)) == n
  {
    var s := Render(n);
    if n < 0 {
      DigitsValueOfDecimal(-n);
      assert s[1..] == Decimal(-n);
    } else {
      DigitsValueOfDecimal(n);
      assert s[DigitStart(s)..] == Decimal(n);
    }
  }

  /** get_char: the one-character string at `idx`, the empty string at the
      terminator (`idx == strlen(s)`), and NULL for any other index. */
  function GetChar(s: string, idx: int): (r: Option<string>)
    requires IsCString(s)
    ensures r.Some? <==> 0 <= idx <= |s|
    ensures r.Some? ==> IsCString(r.value) && |r.value| <= 1
    ensures r.Some? && idx < |s| ==> r.value == [s[idx]]
    ensures r.Some? && idx == |s| ==> r.value == ""
  {
    if idx < 0 || idx > |s| then None
    else if idx == |s| then Some("")
    else Some([s[idx]])
  }

  /** The concatenation of get_char(s, k) for k from `i` up to and including strlen(s). */
  function CharsFrom(s: string, i: nat): string
    requires IsCString(s) && i <= |s|
    decreases |s| - i
  {
    if i == |s| then GetChar(s, i).value else GetChar(s, i).value + CharsFrom(s, i + 1)
  }

  /** Reading a C string one get_char at a time, terminator included, rebuilds it. */
  lemma {:induction false} CharsRebuild(s: string, i: nat)
    requires IsCString(s) && i <= |s|
    ensures CharsFrom(s, i) == s[i..]
    decreases |s| - i
  {
    if i < |s| {
      CharsRebuild(s, i + 1);
      assert s[i..] == [s[i]] + s[i + 1..];
    }
  }

  /** concat_string: a freshly allocated string holding `a` followed by `b`. */
  function ConcatString(a: string, b: string): (r: string)
    requires IsCString(a) && IsCString(b)
    ensures IsCString(r)
    ensures |r| == |a| + |b|
    ensures r[..|a|] == a && r[|a|..] == b
  {
    a + b
  }

  /** Past the length of `a`, get_char on a concatenation reads `b`. */
  lemma GetCharConcat(a: string, b: string, k: int)
    requires IsCString(a) && IsCString(b) && 0 <= k
    ensures GetChar(ConcatString(a, b), |a| + k) == GetChar(b, k)
  {
  }

  /** str_comp: 1 when strcmp reports the two strings equal, 0 otherwise. */
  function StrComp(a: string, b: string): (r: int)
    requires IsCString(a) && IsCString(b)
    ensures r == 0 || r == 1
    ensures r == 1 <==> a == b
  {
    if a == b then 1 else 0
  }
}

=== FILE: edges.dfy ===
/** The edge operations of graph.c's graph engine: _find_edge, _add_edge and
    its two wrappers, delete_edge and _modify_edge, and the modify_graph
    dispatcher built on them. Every edge operation first resolves both labels
    with get_vertex, so it acts on the FIRST vertex holding each label. */
module GraphEdges {
  import opened Support
  import opened GraphEngine

  /** The edge list of the vertex get_vertex finds for `m`; empty when there is none. */
  function OutEdges(g: Graph, m: MapRef): seq<Edge> {
    match Locate(g, Some(m))
    case None => []
    case Some(i) => g.vertices[i].edges
  }

  /** The address of the vertex get_vertex finds for `m`. */
  function IdOf(g: Graph, m: MapRef): VertexId
    requires Locate(g, Some(m)).Some?
  {
    g.vertices[Locate(g, Some(m)).value].id
  }

  /** Some edge of `es` points at the vertex `id`. */
  predicate HasEdgeTo(es: seq<Edge>, id: VertexId) {
    exists k :: 0 <= k < |es| && es[k].to == id
  }

  /** _find_edge: true when both labels are held by vertices and the edge list
      of `v`'s vertex has an edge to `f`'s vertex; false for NULL or unknown labels. */
  function FindEdge(g: Graph, v: Option<MapRef>, f: Option<MapRef>): (r: bool)
    ensures r <==> && v.Some? && f.Some? && Locate(g, v).Some? && Locate(g, f).Some?
                   && HasEdgeTo(OutEdges(g, v.value), IdOf(g, f.value))
  {
    if v.None? || f.None? || Locate(g, v).None? || Locate(g, f).None? then false
    else FirstIndex(OutEdges(g, v.value), TargetIs(IdOf(g, f.value))).Some?
  }

  /** The payload of the edge `v -> f` that a walk of `v`'s list reaches first, if any. */
  function Payload(g: Graph, v: MapRef, f: MapRef): Option<string> {
    if Locate(g, Some(v)).None? || Locate(g, Some(f)).None? then None
    else match FirstIndex(OutEdges(g, v), TargetIs(IdOf(g, f)))
      case None => None
      case Some(k) => Some(OutEdges(g, v)[k].data)
  }

  /** The guard `if (!get_vertex(g, m)) add_vertex(g, m)` of _add_edge and
      modify_graph: afterwards `m` has a vertex, and the vertices already there
      stay as they were, in front. */
  function EnsureVertex(g: Graph, m: MapRef): (r: Graph)
    ensures WellFormed(g) ==> WellFormed(r)
    ensures Locate(r, Some(m)).Some?
    ensures |g.vertices| <= |r.vertices| <= |g.vertices| + 1
    ensures forall j :: 0 <= j < |g.vertices| ==> r.vertices[j] == g.vertices[j]
    ensures Locate(g, Some(m)).Some? ==> r == g
    ensures Labels(r) == Labels(g) + (if Locate(g, Some(m)).None? then [m] else [])
    ensures r.vertexCount == g.vertexCount + (|r.vertices| - |g.vertices|)
    ensures r.edgeCount == g.edgeCount && g.nextId <= r.nextId
    ensures forall j :: |g.vertices| <= j < |r.vertices| ==> r.vertices[j] == Vertex(g.nextId, m, [])
  {
    if Locate(g, Some(m)).Some? then g
    else
      var r := AddVertex(g, Some(m));
      assert r.vertices[|g.vertices|].data == m;
      r
  }

  /** Row `i` of `g` given the edge list `es`, and `edge_count` set to `ec`. */
  function ReplaceRow(g: Graph, i: nat, es: seq<Edge>, ec: int): (r: Graph)
    requires i < |g.vertices|
    ensures SameVertices(g, r) && r.edgeCount == ec
    ensures r.vertices[i].edges == es
    ensures forall j :: 0 <= j < |g.vertices| && j != i ==> r.vertices[j] == g.vertices[j]
  {
    Graph(g.vertices[i := g.vertices[i].(edges := es)], g.vertexCount, ec, g.nextId)
  }

  /** A row replacement keeps the invariant when the new row is sound and
      `edge_count` still covers the vertices with edges. */
  lemma ReplaceRowWellFormed(g: Graph, i: nat, es: seq<Edge>, ec: int)
    requires WellFormed(g) && i < |g.vertices|
    requires RowOk(g.vertices[i].(edges := es), g.nextId)
    requires NonEmptyRows(g.vertices) - RowMark(g.vertices[i]) + RowMark(g.vertices[i].(edges := es)) <= ec
    ensures WellFormed(ReplaceRow(g, i, es, ec))
  {
    NonEmptyRowsUpdate(g.vertices, i, g.vertices[i].(edges := es));
  }

  /** After a row replacement, labels resolve as before, and the edge list found
      for a label is the new row exactly when the label resolves to row `i`. */
  lemma ReplaceRowOutEdges(g: Graph, i: nat, es: seq<Edge>, ec: int, x: MapRef)
    requires i < |g.vertices|
    ensures Locate(ReplaceRow(g, i, es, ec), Some(x)) == Locate(g, Some(x))
    ensures OutEdges(ReplaceRow(g, i, es, ec), x) == if Locate(g, Some(x)) == Some(i) then es else OutEdges(g, x)
  {
    LocateSameVertices(g, ReplaceRow(g, i, es, ec));
  }

  /** Where the guarded add_vertex leaves label `x`: a label that resolved
      resolves to the same row, `m` itself resolves to the new last row if it
      had no vertex, and any other label stays unresolved. */
  lemma EnsureVertexLocate(g: Graph, m: MapRef, x: MapRef)
    ensures Locate(g, Some(x)).Some? ==> Locate(EnsureVertex(g, m), Some(x)) == Locate(g, Some(x))
    ensures Locate(g, Some(x)).None? && x == m ==> Locate(EnsureVertex(g, m), Some(x)) == Some(|g.vertices|)
    ensures Locate(g, Some(x)).None? && x != m ==> Locate(EnsureVertex(g, m), Some(x)).None?
  {
    if Locate(g, Some(m)).None? {
      FirstIndexAppend(g.vertices, Vertex(g.nextId, m, []), HasLabel(x));
    }
  }

  /** The guarded add_vertex leaves every label's edge list as it was. */
  lemma EnsureVertexOutEdges(g: Graph, m: MapRef, x: MapRef)
    ensures Locate(g, Some(x)).Some? ==> Locate(EnsureVertex(g, m), Some(x)) == Locate(g, Some(x))
    ensures OutEdges(EnsureVertex(g, m), x) == OutEdges(g, x)
  {
    EnsureVertexLocate(g, m, x);
  }

  /** The guarded add_vertex creates no edge: _find_edge answers as before. */
  lemma EnsureVertexFindEdge(g: Graph, m: MapRef, x: MapRef, y: MapRef)
    requires WellFormed(g)
    ensures FindEdge(EnsureVertex(g, m), Some(x), Some(y)) == FindEdge(g, Some(x), Some(y))
  {
    var r := EnsureVertex(g, m);
    EnsureVertexOutEdges(g, m, x);
    EnsureVertexOutEdges(g, m, y);
    if Locate(g, Some(m)).None? && Locate(g, Some(x)).Some? && Locate(g, Some(y)).None? && Locate(r, Some(y)).Some? {
      var i := Locate(g, Some(x)).value;
      assert RowOk(g.vertices[i], g.nextId);
      assert y == m;
      assert IdOf(r, y) == g.nextId;
    }
  }

  /** The edge list `es` with `e` linked after its last edge: the walk of _add_edge.
      `edge_count` rises only when the list was empty. */
  function AppendEdge(g: Graph, i: nat, e: Edge): (r: Graph)
    requires i < |g.vertices|
    ensures SameVertices(g, r)
    ensures r.vertices[i].edges == g.vertices[i].edges + [e]
    ensures forall j :: 0 <= j < |g.vertices| && j != i ==> r.vertices[j] == g.vertices[j]
    ensures r.edgeCount == g.edgeCount + (if g.vertices[i].edges == [] then 1 else 0)
  {
    var es := g.vertices[i].edges;
    if es == [] then ReplaceRow(g, i, [e], g.edgeCount + 1)
    else ReplaceRow(g, i, es + [e], g.edgeCount)
  }

  /** Appending an edge to a new target keeps a sound row sound. */
  lemma RowOkAppend(v: Vertex, e: Edge, bound: VertexId)
    requires RowOk(v, bound) && e.to < bound && !HasEdgeTo(v.edges, e.to)
    ensures RowOk(v.(edges := v.edges + [e]), bound)
  {
    var es := v.edges + [e];
    forall k, l | 0 <= k < l < |es|
      ensures es[k].to != es[l].to
    {
      if l == |v.edges| {
        assert es[k] == v.edges[k];
      }
    }
  }

  /** Appending an edge to a new, allocated target keeps the invariant. */
  lemma AppendEdgeWellFormed(g: Graph, i: nat, e: Edge)
    requires WellFormed(g) && i < |g.vertices|
    requires e.to < g.nextId && !HasEdgeTo(g.vertices[i].edges, e.to)
    ensures WellFormed(AppendEdge(g, i, e))
  {
    var v := g.vertices[i];
    assert RowOk(v, g.nextId);
    RowOkAppend(v, e, g.nextId);
    ReplaceRowWellFormed(g, i, v.edges + [e], AppendEdge(g, i, e).edgeCount);
  }

  /** The linking step of _add_edge once both endpoints have vertices and the
      edge is known to be missing. */
  function LinkEdge(g: Graph, v: MapRef, f: MapRef, data: string): (r: Graph)
    requires Locate(g, Some(v)).Some? && Locate(g, Some(f)).Some?
    ensures WellFormed(g) && !FindEdge(g, Some(v), Some(f)) ==> WellFormed(r)
    ensures SameVertices(g, r)
    ensures r.vertices[Locate(g, Some(v)).value].edges == OutEdges(g, v) + [Edge(IdOf(g, f), data)]
    ensures r.edgeCount == g.edgeCount + (if OutEdges(g, v) == [] then 1 else 0)
  {
    var i := Locate(g, Some(v)).value;
    var e := Edge(IdOf(g, f), data);
    if WellFormed(g) && !FindEdge(g, Some(v), Some(f)) then
      assert RowOk(g.vertices[Locate(g, Some(f)).value], g.nextId);
      AppendEdgeWellFormed(g, i, e);
      AppendEdge(g, i, e)
    else AppendEdge(g, i, e)
  }

  /** The two guards `if (!get_vertex(g, v)) add_vertex(g, v)` and the same for
      `f` at the start of _add_edge and of modify_graph's linking branch. */
  function Endpoints(g: Graph, v: MapRef, f: MapRef): (r: Graph)
    ensures Locate(r, Some(v)).Some? && Locate(r, Some(f)).Some?
    ensures Locate(g, Some(v)).Some? && Locate(g, Some(f)).Some? ==> r == g
    ensures Labels(r) == Labels(g) + (if Locate(g, Some(v)).None? then [v] else [])
                                   + (if Locate(g, Some(f)).None? && f != v then [f] else [])
    ensures r.vertexCount == g.vertexCount + (|r.vertices| - |g.vertices|)
    ensures WellFormed(g) ==> WellFormed(r)
    ensures r.edgeCount == g.edgeCount
  {
    var g1 := EnsureVertex(g, v);
    EnsureVertexOutEdges(g1, f, v);
    EnsureVertexLocate(g, v, f);
    EnsureVertex(g1, f)
  }

  /** _add_edge: NULL labels do nothing. Otherwise each label without a vertex
      first gets one (add_vertex, at the tail). An existing edge `v -> f` is
      left alone; otherwise a new edge goes last in `v`'s list. */
  function AddEdgeWithData(g: Graph, v: Option<MapRef>, f: Option<MapRef>, data: string): (r: Graph)
    ensures WellFormed(g) ==> WellFormed(r)
    ensures v.None? || f.None? ==> r == g
  {
    if v.None? || f.None? then g
    else
      var g2 := Endpoints(g, v.value, f.value);
      if FindEdge(g2, v, f) then g2
      else LinkEdge(g2, v.value, f.value, data)
  }

  /** The guards keep the vertices already present, in front. */
  lemma EndpointsPrefix(g: Graph, v: MapRef, f: MapRef)
    ensures |g.vertices| <= |Endpoints(g, v, f).vertices|
    ensures forall j :: 0 <= j < |g.vertices| ==> Endpoints(g, v, f).vertices[j] == g.vertices[j]
  {
  }

  /** A label that already had a vertex keeps it; otherwise its vertex is a new one. */
  lemma EndpointsLocate(g: Graph, v: MapRef, f: MapRef)
    ensures Locate(g, Some(v)).Some? ==> Locate(Endpoints(g, v, f), Some(v)) == Locate(g, Some(v))
    ensures Locate(g, Some(v)).None? ==> Locate(Endpoints(g, v, f), Some(v)).value >= |g.vertices|
  {
    var g1 := EnsureVertex(g, v);
    EnsureVertexOutEdges(g, v, v);
    EnsureVertexOutEdges(g1, f, v);
    EndpointsPrefix(g, v, f);
  }

  /** The guards leave `v`'s edge list alone. */
  lemma EndpointsOutEdges(g: Graph, v: MapRef, f: MapRef)
    ensures OutEdges(Endpoints(g, v, f), v) == OutEdges(g, v)
  {
    EnsureVertexOutEdges(g, v, v);
    EnsureVertexOutEdges(EnsureVertex(g, v), f, v);
  }

  /** The guards leave the answer of _find_edge alone. */
  lemma EndpointsFindEdge(g: Graph, v: MapRef, f: MapRef)
    requires WellFormed(g)
    ensures FindEdge(Endpoints(g, v, f), Some(v), Some(f)) == FindEdge(g, Some(v), Some(f))
  {
    EnsureVertexFindEdge(g, v, v, f);
    EnsureVertexFindEdge(EnsureVertex(g, v), f, v, f);
  }

  /** The linking step appends exactly the new edge, carrying `data`, to `v`'s list. */
  lemma LinkEdgeRow(g: Graph, v: MapRef, f: MapRef, data: string)
    requires Locate(g, Some(v)).Some? && Locate(g, Some(f)).Some?
    ensures var r := LinkEdge(g, v, f, data);
      && SameVertices(g, r)
      && Locate(r, Some(v)) == Locate(g, Some(v)) && Locate(r, Some(f)) == Locate(g, Some(f))
      && OutEdges(r, v) == OutEdges(g, v) + [Edge(IdOf(g, f), data)]
      && IdOf(r, f) == IdOf(g, f)
  {
    var r := LinkEdge(g, v, f, data);
    var i := Locate(g, Some(v)).value;
    var es' := OutEdges(g, v) + [Edge(IdOf(g, f), data)];
    assert r == ReplaceRow(g, i, es', r.edgeCount);
    ReplaceRowOutEdges(g, i, es', r.edgeCount, v);
    ReplaceRowOutEdges(g, i, es', r.edgeCount, f);
  }

  /** After the linking step _find_edge reports the edge and its payload is `data`. */
  lemma LinkEdgeFinds(g: Graph, v: MapRef, f: MapRef, data: string)
    requires Locate(g, Some(v)).Some? && Locate(g, Some(f)).Some? && !FindEdge(g, Some(v), Some(f))
    ensures FindEdge(LinkEdge(g, v, f, data), Some(v), Some(f))
    ensures Payload(LinkEdge(g, v, f, data), v, f) == Some(data)
  {
    var r := LinkEdge(g, v, f, data);
    LinkEdgeRow(g, v, f, data);
    var es := OutEdges(g, v);
    var fid := IdOf(g, f);
    var es' := OutEdges(r, v);
    assert !HasEdgeTo(es, fid);
    forall k | 0 <= k < |es|
      ensures es'[k].to != fid
    {
      assert es'[k] == es[k];
    }
    assert es'[|es|].to == fid;
    assert FirstIndex(es', TargetIs(fid)) == Some(|es|);
  }

  /** The linking step raises `edge_count` only when `v`'s list was empty, and
      leaves the rows of other vertices alone. */
  lemma LinkEdgeOthers(g: Graph, v: MapRef, f: MapRef, data: string)
    requires Locate(g, Some(v)).Some? && Locate(g, Some(f)).Some?
    ensures var r := LinkEdge(g, v, f, data);
      && r.edgeCount == g.edgeCount + (if OutEdges(g, v) == [] then 1 else 0)
      && forall j :: 0 <= j < |g.vertices| && Some(j) != Locate(g, Some(v)) ==> r.vertices[j] == g.vertices[j]
  {
  }

  /** After _add_edge both endpoints have vertices and _find_edge reports the
      edge; when the edge already existed nothing changed. */
  lemma AddEdgeLinks(g: Graph, v: MapRef, f: MapRef, data: string)
    ensures var r := AddEdgeWithData(g, Some(v), Some(f), data);
      && Locate(r, Some(v)).Some? && Locate(r, Some(f)).Some?
      && FindEdge(r, Some(v), Some(f))
      && (FindEdge(g, Some(v), Some(f)) ==> r == g)
  {
    var g2 := Endpoints(g, v, f);
    if !FindEdge(g2, Some(v), Some(f)) {
      LinkEdgeRow(g2, v, f, data);
      LinkEdgeFinds(g2, v, f, data);
    }
  }

  /** A new edge goes at the end of `v`'s list and carries `data`. */
  lemma AddEdgeAppends(g: Graph, v: MapRef, f: MapRef, data: string)
    requires WellFormed(g)
    requires !FindEdge(g, Some(v), Some(f))
    ensures var r := AddEdgeWithData(g, Some(v), Some(f), data);
      && Locate(r, Some(f)).Some?
      && OutEdges(r, v) == OutEdges(g, v) + [Edge(IdOf(r, f), data)]
      && Payload(r, v, f) == Some(data)
  {
    var g2 := Endpoints(g, v, f);
    EndpointsFindEdge(g, v, f);
    EndpointsOutEdges(g, v, f);
    LinkEdgeRow(g2, v, f, data);
    LinkEdgeFinds(g2, v, f, data);
  }

  /** _add_edge raises `edge_count` by one exactly when it links a new edge
      into an empty list, and never lowers it. */
  lemma AddEdgeCount(g: Graph, v: MapRef, f: MapRef, data: string)
    requires WellFormed(g)
    ensures AddEdgeWithData(g, Some(v), Some(f), data).edgeCount
         == g.edgeCount + (if !FindEdge(g, Some(v), Some(f)) && OutEdges(g, v) == [] then 1 else 0)
  {
    var g2 := Endpoints(g, v, f);
    EndpointsFindEdge(g, v, f);
    EndpointsOutEdges(g, v, f);
    if !FindEdge(g2, Some(v), Some(f)) {
      LinkEdgeOthers(g2, v, f, data);
    }
  }

  /** _add_edge keeps the vertices already present, in order, and appends a
      vertex for each endpoint that had none, `v` before `f`, each once;
      `vertex_count` rises by the number appended. */
  lemma AddEdgeKeepsLabels(g: Graph, v: MapRef, f: MapRef, data: string)
    ensures var r := AddEdgeWithData(g, Some(v), Some(f), data);
      && Labels(r) == Labels(g) + (if Locate(g, Some(v)).None? then [v] else [])
                                + (if Locate(g, Some(f)).None? && f != v then [f] else [])
      && r.vertexCount == g.vertexCount + (|r.vertices| - |g.vertices|)
  {
    var g2 := Endpoints(g, v, f);
    if !FindEdge(g2, Some(v), Some(f)) {
      LinkEdgeLabels(g2, v, f, data);
    }
  }

  /** The linking step keeps the label list and `vertex_count`. */
  lemma LinkEdgeLabels(g: Graph, v: MapRef, f: MapRef, data: string)
    requires Locate(g, Some(v)).Some? && Locate(g, Some(f)).Some?
    ensures Labels(LinkEdge(g, v, f, data)) == Labels(g)
    ensures LinkEdge(g, v, f, data).vertexCount == g.vertexCount
  {
    var r := LinkEdge(g, v, f, data);
    assert |Labels(r)| == |Labels(g)|;
    forall j | 0 <= j < |Labels(g)|
      ensures Labels(r)[j] == Labels(g)[j]
    {
      assert r.vertices[j].data == g.vertices[j].data;
    }
  }

  /** _add_edge touches no row but `v`'s. */
  lemma AddEdgeKeepsOtherRows(g: Graph, v: MapRef, f: MapRef, data: string)
    ensures var r := AddEdgeWithData(g, Some(v), Some(f), data);
      forall j :: 0 <= j < |g.vertices| && Some(j) != Locate(g, Some(v)) ==> r.vertices[j] == g.vertices[j]
  {
    var g2 := Endpoints(g, v, f);
    var r := AddEdgeWithData(g, Some(v), Some(f), data);
    EndpointsPrefix(g, v, f);
    EndpointsLocate(g, v, f);
    if !FindEdge(g2, Some(v), Some(f)) {
      LinkEdgeOthers(g2, v, f, data);
    }
  }

  /** add_edge: _add_edge with the empty string as payload. */
  function AddEdge(g: Graph, v: Option<MapRef>, f: Option<MapRef>): (r: Graph)
    requires WellFormed(g)
    ensures WellFormed(r)
    ensures v.Some? && f.Some? ==> FindEdge(r, v, f)
    ensures v.Some? && f.Some? && !FindEdge(g, v, f) ==> Payload(r, v.value, f.value) == Some("")
  {
    if v.Some? && f.Some? then
      AddEdgeLinks(g, v.value, f.value, "");
      if !FindEdge(g, v, f) then AddEdgeAppends(g, v.value, f.value, ""); AddEdgeWithData(g, v, f, "")
      else AddEdgeWithData(g, v, f, "")
    else AddEdgeWithData(g, v, f, "")
  }

  /** add_wedge: _add_edge with the given payload (the payload comes before the target). */
  function AddWeightedEdge(g: Graph, v: Option<MapRef>, data: string, f: Option<MapRef>): (r: Graph)
    requires WellFormed(g)
    ensures WellFormed(r)
    ensures v.Some? && f.Some? ==> FindEdge(r, v, f)
    ensures v.Some? && f.Some? && !FindEdge(g, v, f) ==> Payload(r, v.value, f.value) == Some(data)
  {
    if v.Some? && f.Some? then
      AddEdgeLinks(g, v.value, f.value, data);
      if !FindEdge(g, v, f) then AddEdgeAppends(g, v.value, f.value, data); AddEdgeWithData(g, v, f, data)
      else AddEdgeWithData(g, v, f, data)
    else AddEdgeWithData(g, v, f, data)
  }

  /** The row delete_edge leaves. The walk starts on the head edge and tests
      only the edges after it, so the head is never removed; the first later
      edge targeting `fid` is unlinked. */
  function DropLaterEdge(es: seq<Edge>, fid: VertexId): (r: seq<Edge>)
    requires es != []
    ensures r != [] && r[0] == es[0]
    ensures (forall k :: 0 < k < |es| ==> es[k].to != fid) ==> r == es
    ensures (exists k :: 0 < k < |es| && es[k].to == fid) ==>
      exists k :: 0 < k < |es| && es[k].to == fid && r == RemoveAt(es, k) && forall j :: 0 < j < k ==> es[j].to != fid
  {
    match FirstIndex(es[1..], TargetIs(fid))
    case None => es
    case Some(k) => RemoveAt(es, k + 1)
  }

  /** Unlinking an edge keeps a sound row sound. */
  lemma RowOkRemoveAt(v: Vertex, j: nat, bound: VertexId)
    requires j < |v.edges| && RowOk(v, bound)
    ensures RowOk(v.(edges := RemoveAt(v.edges, j)), bound)
  {
    var r := RemoveAt(v.edges, j);
    forall k, l | 0 <= k < l < |r|
      ensures r[k].to != r[l].to
    {
      var k' := if k < j then k else k + 1;
      var l' := if l < j then l else l + 1;
      assert r[k] == v.edges[k'] && r[l] == v.edges[l'];
    }
  }

  /** Dropping a later edge keeps a sound row sound. */
  lemma DropLaterEdgeRowOk(v: Vertex, fid: VertexId, bound: VertexId)
    requires v.edges != [] && RowOk(v, bound)
    ensures RowOk(v.(edges := DropLaterEdge(v.edges, fid)), bound)
  {
    match FirstIndex(v.edges[1..], TargetIs(fid))
    case None =>
    case Some(k) => RowOkRemoveAt(v, k + 1, bound);
  }

  /** On a row without duplicate targets, delete_edge's walk removes the edge to
      `fid` exactly when it is there and is not the head, and removes nothing else. */
  lemma DropLaterEdgeSpec(es: seq<Edge>, fid: VertexId)
    requires es != []
    requires forall k, l :: 0 <= k < l < |es| ==> es[k].to != es[l].to
    ensures var r := DropLaterEdge(es, fid);
      && (!HasEdgeTo(es, fid) || es[0].to == fid ==> r == es)
      && (HasEdgeTo(es, fid) && es[0].to != fid ==>
            && !HasEdgeTo(r, fid) && |r| == |es| - 1
            && (forall k :: 0 <= k < |es| && es[k].to != fid ==> es[k] in r)
            && forall k :: 0 < k < |es| && es[k].to == fid ==> r == RemoveAt(es, k))
  {
    var r := DropLaterEdge(es, fid);
    match FirstIndex(es[1..], TargetIs(fid))
    case None =>
    case Some(k) =>
      assert es[1..][k] == es[k + 1];
      assert HasEdgeTo(es, fid);
      forall a | 0 <= a < |r|
        ensures r[a].to != fid
      {
        if a >= k + 1 {
          assert r[a] == es[a + 1];
        }
      }
      forall a | 0 <= a < |es| && es[a].to != fid
        ensures es[a] in r
      {
        if a < k + 1 {
          assert r[a] == es[a];
        } else {
          assert r[a - 1] == es[a];
        }
      }
  }

  /** What delete_edge needs in order not to dereference NULL: when both labels
      have vertices, `v`'s edge list is not empty (the walk starts at its head). */
  predicate DeleteEdgeDefined(g: Graph, v: Option<MapRef>, f: Option<MapRef>) {
    v.Some? && f.Some? && Locate(g, v).Some? && Locate(g, f).Some? ==> OutEdges(g, v.value) != []
  }

  /** delete_edge: nothing happens for NULL labels or a label without a vertex.
      Otherwise the walk starts at the head of `v`'s list and unlinks the first
      LATER edge targeting `f`'s vertex; `edge_count` is not touched. */
  function DeleteEdge(g: Graph, v: Option<MapRef>, f: Option<MapRef>): (r: Graph)
    requires WellFormed(g)
    requires DeleteEdgeDefined(g, v, f)
    ensures WellFormed(r)
    ensures SameVertices(g, r) && r.edgeCount == g.edgeCount
    ensures v.None? || f.None? || Locate(g, v).None? || Locate(g, f).None? ==> r == g
  {
    if v.None? || f.None? || Locate(g, v).None? || Locate(g, f).None? then g
    else
      var i := Locate(g, v).value;
      var es := g.vertices[i].edges;
      var es' := DropLaterEdge(es, IdOf(g, f.value));
      assert RowOk(g.vertices[i], g.nextId);
      DropLaterEdgeRowOk(g.vertices[i], IdOf(g, f.value), g.nextId);
      ReplaceRowWellFormed(g, i, es', g.edgeCount);
      ReplaceRow(g, i, es', g.edgeCount)
  }

  /** delete_edge on two located labels rewrites `v`'s row to the row its walk leaves. */
  lemma DeleteEdgeRow(g: Graph, v: MapRef, f: MapRef)
    requires WellFormed(g)
    requires DeleteEdgeDefined(g, Some(v), Some(f))
    requires Locate(g, Some(v)).Some? && Locate(g, Some(f)).Some?
    ensures var r := DeleteEdge(g, Some(v), Some(f));
      && Locate(r, Some(v)) == Locate(g, Some(v)) && Locate(r, Some(f)) == Locate(g, Some(f))
      && IdOf(r, f) == IdOf(g, f)
      && OutEdges(r, v) == DropLaterEdge(OutEdges(g, v), IdOf(g, f))
  {
    var i := Locate(g, Some(v)).value;
    var es' := DropLaterEdge(OutEdges(g, v), IdOf(g, f));
    ReplaceRowOutEdges(g, i, es', g.edgeCount, v);
    ReplaceRowOutEdges(g, i, es', g.edgeCount, f);
  }

  /** delete_edge changes nothing when the edge `v -> f` is missing or is the
      head of `v`'s list (the walk never tests the head). */
  lemma DeleteEdgeNoop(g: Graph, v: MapRef, f: MapRef)
    requires WellFormed(g)
    requires DeleteEdgeDefined(g, Some(v), Some(f))
    requires !FindEdge(g, Some(v), Some(f)) || OutEdges(g, v)[0].to == IdOf(g, f)
    ensures DeleteEdge(g, Some(v), Some(f)) == g
  {
    if Locate(g, Some(v)).Some? && Locate(g, Some(f)).Some? {
      var i := Locate(g, Some(v)).value;
      assert RowOk(g.vertices[i], g.nextId);
      DropLaterEdgeSpec(g.vertices[i].edges, IdOf(g, f));
      assert DeleteEdge(g, Some(v), Some(f)).vertices == g.vertices;
    }
  }

  /** When the edge `v -> f` exists and is not the head, delete_edge removes
      exactly it: _find_edge turns false, the head stays first, and every
      other edge of the row survives. */
  lemma DeleteEdgeRemoves(g: Graph, v: MapRef, f: MapRef)
    requires WellFormed(g)
    requires DeleteEdgeDefined(g, Some(v), Some(f))
    requires FindEdge(g, Some(v), Some(f)) && OutEdges(g, v)[0].to != IdOf(g, f)
    ensures var r := DeleteEdge(g, Some(v), Some(f));
      && !FindEdge(r, Some(v), Some(f))
      && |OutEdges(r, v)| == |OutEdges(g, v)| - 1
      && OutEdges(r, v)[0] == OutEdges(g, v)[0]
      && forall k :: 0 <= k < |OutEdges(g, v)| && OutEdges(g, v)[k].to != IdOf(g, f) ==> OutEdges(g, v)[k] in OutEdges(r, v)
  {
    var i := Locate(g, Some(v)).value;
    assert RowOk(g.vertices[i], g.nextId);
    DropLaterEdgeSpec(g.vertices[i].edges, IdOf(g, f));
    DeleteEdgeRow(g, v, f);
  }

  /** The unlinking keeps order: when the `k`-th edge of `v` (not the head)
      points at `f`'s vertex, delete_edge leaves `v`'s list without exactly
      that edge. */
  lemma DeleteEdgeUnlinks(g: Graph, v: MapRef, f: MapRef, k: nat)
    requires WellFormed(g)
    requires Locate(g, Some(v)).Some? && Locate(g, Some(f)).Some?
    requires 0 < k < |OutEdges(g, v)| && OutEdges(g, v)[k].to == IdOf(g, f)
    ensures OutEdges(DeleteEdge(g, Some(v), Some(f)), v) == RemoveAt(OutEdges(g, v), k)
  {
    var i := Locate(g, Some(v)).value;
    assert RowOk(g.vertices[i], g.nextId);
    DropLaterEdgeSpec(g.vertices[i].edges, IdOf(g, f));
    DeleteEdgeRow(g, v, f);
  }

  /** delete_edge touches no row but `v`'s. */
  lemma DeleteEdgeKeepsOtherRows(g: Graph, v: MapRef, f: MapRef)
    requires WellFormed(g)
    requires DeleteEdgeDefined(g, Some(v), Some(f))
    ensures var r := DeleteEdge(g, Some(v), Some(f));
      forall j :: 0 <= j < |g.vertices| && Some(j) != Locate(g, Some(v)) ==> r.vertices[j] == g.vertices[j]
  {
  }

  /** Rewriting payloads leaves the first edge to every target where it was. */
  lemma FirstTargetKept(es: seq<Edge>, es': seq<Edge>, id: VertexId)
    requires |es'| == |es|
    requires forall k :: 0 <= k < |es| ==> es'[k].to == es[k].to
    ensures FirstIndex(es', TargetIs(id)) == FirstIndex(es, TargetIs(id))
  {
    var a := FirstIndex(es, TargetIs(id));
    var b := FirstIndex(es', TargetIs(id));
    if a.Some? && b.Some? {
      assert !(a.value < b.value) && !(b.value < a.value);
    }
  }

  /** _modify_edge: nothing happens for NULL labels, a label without a vertex,
      or a missing edge. Otherwise the payload of the edge `v -> f` is replaced
      in place; no edge is created or removed and the counters stay as they are. */
  function ModifyEdge(g: Graph, v: Option<MapRef>, f: Option<MapRef>, data: string): (r: Graph)
    ensures WellFormed(g) ==> WellFormed(r)
    ensures SameVertices(g, r) && r.edgeCount == g.edgeCount
  {
    if v.None? || f.None? || Locate(g, v).None? || Locate(g, f).None? then g
    else
      var i := Locate(g, v).value;
      var es := g.vertices[i].edges;
      match FirstIndex(es, TargetIs(IdOf(g, f.value)))
      case None => g
      case Some(k) =>
        var es' := es[k := es[k].(data := data)];
        if WellFormed(g) then
          assert RowOk(g.vertices[i], g.nextId);
          ReplaceRowWellFormed(g, i, es', g.edgeCount);
          ReplaceRow(g, i, es', g.edgeCount)
        else ReplaceRow(g, i, es', g.edgeCount)
  }

  /** _modify_edge changes nothing when there is no edge `v -> f`. */
  lemma ModifyEdgeNoop(g: Graph, v: MapRef, f: MapRef, data: string)
    requires !FindEdge(g, Some(v), Some(f))
    ensures ModifyEdge(g, Some(v), Some(f), data) == g
  {
  }

  /** When the edge `v -> f` exists, _modify_edge gives it the payload `data`;
      every edge keeps its target, and every edge to another vertex keeps its payload. */
  lemma ModifyEdgeSets(g: Graph, v: MapRef, f: MapRef, data: string)
    requires FindEdge(g, Some(v), Some(f))
    ensures var r := ModifyEdge(g, Some(v), Some(f), data);
      && Payload(r, v, f) == Some(data)
      && |OutEdges(r, v)| == |OutEdges(g, v)|
      && (forall k :: 0 <= k < |OutEdges(g, v)| ==> OutEdges(r, v)[k].to == OutEdges(g, v)[k].to)
      && (forall k :: 0 <= k < |OutEdges(g, v)| && OutEdges(g, v)[k].to != IdOf(g, f) ==> OutEdges(r, v)[k] == OutEdges(g, v)[k])
  {
    var r := ModifyEdge(g, Some(v), Some(f), data);
    var i := Locate(g, Some(v)).value;
    var es := g.vertices[i].edges;
    var fid := IdOf(g, f);
    var k := FirstIndex(es, TargetIs(fid)).value;
    var es' := es[k := es[k].(data := data)];
    ReplaceRowOutEdges(g, i, es', g.edgeCount, v);
    ReplaceRowOutEdges(g, i, es', g.edgeCount, f);
    assert OutEdges(r, v) == es';
    assert IdOf(r, f) == fid;
    FirstTargetKept(es, es', fid);
  }

  /** _modify_edge touches no row but `v`'s. */
  lemma ModifyEdgeKeepsOtherRows(g: Graph, v: MapRef, f: MapRef, data: string)
    ensures var r := ModifyEdge(g, Some(v), Some(f), data);
      forall j :: 0 <= j < |g.vertices| && Some(j) != Locate(g, Some(v)) ==> r.vertices[j] == g.vertices[j]
  {
  }

  /** modify_graph, the dispatcher. With `d == 0` and a target `b`, any missing
      endpoint gets a vertex, then the edge `a -> b` is added, or modified when
      it exists; a NULL payload becomes "". (A NULL `a` there only lets `b`
      get its vertex: add_vertex and _add_edge both ignore NULL.) With `d == 0`
      and no target, add_vertex(a) runs. With `d != 0`, delete_edge(a, b) runs
      when there is a target, and delete_vertex(a) when there is none. */
  function ModifyGraph(g: Graph, a: Option<MapRef>, w: Option<string>, b: Option<MapRef>, d: int): (r: Graph)
    requires WellFormed(g)
    requires d != 0 && b.Some? ==> DeleteEdgeDefined(g, a, b)
    ensures WellFormed(r)
    ensures d == 0 && b.Some? ==> Locate(r, b).Some?
    ensures d == 0 && a.None? && b.Some? ==> Labels(r) == Labels(g) + (if Locate(g, b).None? then [b.value] else [])
    ensures d == 0 && a.Some? && b.Some? ==>
      r == (if FindEdge(g, a, b) then ModifyEdge(g, a, b, w.GetOr("")) else AddEdgeWithData(g, a, b, w.GetOr("")))
    ensures d == 0 && b.None? ==> r == AddVertex(g, a)
    ensures d != 0 && b.Some? ==> r == DeleteEdge(g, a, b)
    ensures d != 0 && b.None? ==> r == DeleteVertex(g, a)
  {
    if d == 0 then
      if b.Some? then
        if a.None? then EnsureVertex(g, b.value)
        else
          var g2 := Endpoints(g, a.value, b.value);
          var payload := w.GetOr("");
          EndpointsFindEdge(g, a.value, b.value);
          if !FindEdge(g2, a, b) then AddEdgeWithData(g2, a, b, payload)
          else ModifyEdge(g2, a, b, payload)
      else AddVertex(g, a)
    else if b.Some? then DeleteEdge(g, a, b)
    else DeleteVertex(g, a)
  }

  /** modify_graph with `d == 0` and both labels: afterwards both endpoints have
      vertices and the edge `a -> b` exists and carries `w` ("" for NULL),
      whether it was added or modified. */
  lemma ModifyGraphLinks(g: Graph, a: MapRef, w: Option<string>, b: MapRef)
    requires WellFormed(g)
    ensures var r := ModifyGraph(g, Some(a), w, Some(b), 0);
      && Locate(r, Some(a)).Some? && Locate(r, Some(b)).Some?
      && FindEdge(r, Some(a), Some(b))
      && Payload(r, a, b) == Some(w.GetOr(""))
  {
    var g2 := Endpoints(g, a, b);
    var payload := w.GetOr("");
    if !FindEdge(g2, Some(a), Some(b)) {
      AddEdgeLinks(g2, a, b, payload);
      AddEdgeAppends(g2, a, b, payload);
    } else {
      ModifyGraphModifies(g2, a, b, payload);
    }
  }

  /** On a graph where both labels have vertices and the edge exists,
      _modify_edge keeps the edge findable and sets its payload. */
  lemma ModifyGraphModifies(g: Graph, a: MapRef, b: MapRef, payload: string)
    requires FindEdge(g, Some(a), Some(b))
    ensures var r := ModifyEdge(g, Some(a), Some(b), payload);
      && Locate(r, Some(a)).Some? && Locate(r, Some(b)).Some?
      && FindEdge(r, Some(a), Some(b))
      && Payload(r, a, b) == Some(payload)
  {
    ModifyEdgeSets(g, a, b, payload);
    var r := ModifyEdge(g, Some(a), Some(b), payload);
    LocateSameVertices(g, r);
    var es := OutEdges(g, a);
    var k :| 0 <= k < |es| && es[k].to == IdOf(g, b);
    assert OutEdges(r, a)[k].to == IdOf(r, b);
  }
}

=== FILE: genericlist.dfy ===
/** The generic singly linked list of graph.c (struct list): a stored `size`
    counter and the chain of nodes from `head`. Elements are opaque (`void *`
    in C), so the model takes them as a type parameter. */
module GenericList {
  import opened Support

  /** A struct list: the stored `size` and the node data in order from `head`. */
  datatype List<T> = List(size: int, items: seq<T>)

  /** Result of `set`, `add_head` and `add_tail`: the list afterwards and the 1/0 code. */
  datatype Stored<T> = Stored(list: List<T>, code: int)

  /** Result of `remove_head` and `remove_tail`: the list afterwards and the data
      returned (None for the NULL returned on an empty list). */
  datatype Taken<T> = Taken(list: List<T>, data: Option<T>)

  /** The invariant every list built by these operations keeps: `size` counts the nodes. */
  predicate Valid<T>(l: List<T>) {
    l.size == |l.items|
  }

  /** make_list: an empty, valid list. */
  function MakeList<T>(): (l: List<T>)
    ensures Valid(l) && |l.items| == 0
  {
    List(0, [])
  }

  /** size: the stored counter, which on a valid list is the number of nodes. */
  function Size<T>(l: List<T>): (r: int)
    ensures Valid(l) ==> r == |l.items|
  {
    l.size
  }

  /** list_get: NULL for an empty list or an index outside [0, size); otherwise
      the data of the node reached by walking `i` steps from the head. */
  function ListGet<T>(l: List<T>, i: int): (r: Option<T>)
    requires Valid(l)
    ensures r.Some? <==> 0 <= i < |l.items|
    ensures r.Some? ==> r.value == l.items[i]
  {
    if l.items == [] || i >= l.size || i < 0 then None
    else Some(l.items[i])
  }

  /** set: 0 and no change for an empty list or an index outside [0, size);
      otherwise overwrites the data at `i` and reports 1. */
  function Set<T>(l: List<T>, i: int, data: T): (r: Stored<T>)
    requires Valid(l)
    ensures r.code == 1 <==> 0 <= i < |l.items|
    ensures r.code == 0 || r.code == 1
    ensures r.code == 0 ==> r.list == l
    ensures Valid(r.list) && |r.list.items| == |l.items|
    ensures r.code == 1 ==> ListGet(r.list, i) == Some(data)
    ensures forall j :: j != i ==> ListGet(r.list, j) == ListGet(l, j)
  {
    if l.items == [] || i >= l.size || i < 0 then Stored(l, 0)
    else Stored(List(l.size, l.items[i := data]), 1)
  }

  /** add_head: links a new node in front of the head, grows `size`, reports 1. */
  function AddHead<T>(l: List<T>, data: T): (r: Stored<T>)
    ensures r.code == 1
    ensures r.list.size == l.size + 1
    ensures |r.list.items| == |l.items| + 1 && r.list.items[0] == data && r.list.items[1..] == l.items
    ensures Valid(l) ==> Valid(r.list)
  {
    Stored(List(l.size + 1, [data] + l.items), 1)
  }

  /** add_tail: walks to the last node and links a new node after it (or makes it
      the head of an empty list), grows `size`, reports 1. */
  function AddTail<T>(l: List<T>, data: T): (r: Stored<T>)
    ensures r.code == 1
    ensures r.list.size == l.size + 1
    ensures |r.list.items| == |l.items| + 1 && r.list.items[|l.items|] == data && r.list.items[..|l.items|] == l.items
    ensures Valid(l) ==> Valid(r.list)
  {
    if l.items == [] then Stored(List(l.size + 1, [data]), 1)
    else Stored(List(l.size + 1, l.items + [data]), 1)
  }

  /** remove_head: NULL for an empty list; otherwise unlinks the head, shrinks
      `size` and returns the head's data. */
  function RemoveHead<T>(l: List<T>): (r: Taken<T>)
    ensures l.items == [] ==> r == Taken(l, None)
    ensures l.items != [] ==> r.data == Some(l.items[0]) && [l.items[0]] + r.list.items == l.items
    ensures l.items != [] ==> r.list.size == l.size - 1
    ensures Valid(l) ==> Valid(r.list)
  {
    if l.items == [] then Taken(l, None)
    else Taken(List(l.size - 1, l.items[1..]), Some(l.items[0]))
  }

  /** remove_tail: NULL for an empty list; a one-node list is handed to
      remove_head; otherwise the second-to-last node loses its successor, `size`
      shrinks and the last node's data is returned. */
  function RemoveTail<T>(l: List<T>): (r: Taken<T>)
    ensures l.items == [] ==> r == Taken(l, None)
    ensures l.items != [] ==> r.data == Some(l.items[|l.items| - 1]) && r.list.items + [l.items[|l.items| - 1]] == l.items
    ensures l.items != [] ==> r.list.size == l.size - 1
    ensures Valid(l) ==> Valid(r.list)
  {
    if l.items == [] then Taken(l, None)
    else if |l.items| == 1 then RemoveHead(l)
    else Taken(List(l.size - 1, l.items[..|l.items| - 1]), Some(l.items[|l.items| - 1]))
  }

  /** Repeated add_tail of `xs`, in order, onto `l`: the loops that build query results. */
  function AddAllTail<T>(l: List<T>, xs: seq<T>): (r: List<T>)
    ensures r.items == l.items + xs
    ensures r.size == l.size + |xs|
    decreases |xs|
  {
    if xs == [] then l
    else AddAllTail(AddTail(l, xs[0]).list, xs[1..])
  }

  /** concat: a new list built by add_tail of every node of `a`, then every node of `b`.
      The walks follow the node chains, so the result is valid whatever the inputs' counters say. */
  function Concat<T>(a: List<T>, b: List<T>): (r: List<T>)
    ensures Valid(r)
    ensures r.items == a.items + b.items
  {
    AddAllTail(AddAllTail(MakeList(), a.items), b.items)
  }

  /** add_tail then remove_tail hands back the element and the original list. */
  lemma AddTailThenRemoveTail<T>(l: List<T>, x: T)
    ensures RemoveTail(AddTail(l, x).list) == Taken(l, Some(x))
  {
    var l' := AddTail(l, x).list;
    assert l'.items[..|l'.items| - 1] == l.items;
  }

  /** add_head then remove_head hands back the element and the original list. */
  lemma AddHeadThenRemoveHead<T>(l: List<T>, x: T)
    ensures RemoveHead(AddHead(l, x).list) == Taken(l, Some(x))
  {
  }

  /** Index `i` of a concatenation reads `a` below |a| and `b` from there on. */
  lemma ConcatGet<T>(a: List<T>, b: List<T>, i: int)
    requires 0 <= i < |a.items| + |b.items|
    ensures ListGet(Concat(a, b), i) == Some(if i < |a.items| then a.items[i] else b.items[i - |a.items|])
  {
  }

  /** The list scenario of the test driver: five add_tail, two remove_head. */
  lemma FiveAddsTwoRemoves()
    ensures var l0 := MakeList<int>();
            var l5 := AddTail(AddTail(AddTail(AddTail(AddTail(l0, 1).list, 2).list, 3).list, 4).list, 5).list;
            var r1 := RemoveHead(l5);
            var r2 := RemoveHead(r1.list);
            && r1.data == Some(1) && r2.data == Some(2)
            && Size(r2.list) == 3 && Valid(r2.list)
            && ListGet(r2.list, 0) == Some(3)
            && r2.list.items == [3, 4, 5]
  {
  }
}

=== FILE: graph.dfy ===
/** The graph engine of graph.c: an ordered vertex list with two stored
    counters, where each vertex owns an ordered list of outgoing edges.

    Identity is by address throughout. A vertex's label is a `struct map *`
    (`MapRef`), and `get_vertex` finds the FIRST vertex holding that very
    pointer. Each `add_vertex` allocates a new vertex (`VertexId`, handed out
    from `nextId`), and an edge points at a vertex, not at a label.

    The counters are stored, not derived. `vertex_count` tracks the list.
    `edge_count` is raised only when an edge becomes the FIRST edge of its
    vertex and is never lowered; it is not the number of edges. */
module GraphEngine {
  import opened Support

  /** Address of a label map; vertices never hold NULL (add_vertex refuses it). */
  type MapRef = nat

  /** Address of a struct vertex. */
  type VertexId = nat

  /** A struct edge. Its `from` field always holds the owning vertex (it is set
      from the vertex whose list receives the edge), so it is not stored. */
  datatype Edge = Edge(to: VertexId, data: string)

  /** A struct vertex: its address, its label pointer and its outgoing edges in list order. */
  datatype Vertex = Vertex(id: VertexId, data: MapRef, edges: seq<Edge>)

  /** A struct graph: the vertex list from `vertex_head`, the two stored counters,
      and the next address `add_vertex` allocates. */
  datatype Graph = Graph(vertices: seq<Vertex>, vertexCount: int, edgeCount: int, nextId: VertexId)

  /** The test of get_vertex: `current->data == data`, a pointer comparison. */
  function HasLabel(m: MapRef): Vertex -> bool {
    (v: Vertex) => v.data == m
  }

  /** An edge test: `edge->to == vertex`, a pointer comparison. */
  function TargetIs(id: VertexId): Edge -> bool {
    (e: Edge) => e.to == id
  }

  /** The labels of the vertices, in vertex-list order. */
  function Labels(g: Graph): (r: seq<MapRef>)
    ensures |r| == |g.vertices|
    ensures forall i :: 0 <= i < |r| ==> r[i] == g.vertices[i].data
  {
    seq(|g.vertices|, i requires 0 <= i < |g.vertices| => g.vertices[i].data)
  }

  function RowMark(v: Vertex): nat {
    if v.edges != [] then 1 else 0
  }

  /** The number of vertices whose edge list is not empty. */
  function NonEmptyRows(vs: seq<Vertex>): nat {
    if vs == [] then 0 else RowMark(vs[0]) + NonEmptyRows(vs[1..])
  }

  /** A vertex row whose addresses were all handed out below `bound`, with at
      most one edge per target (the duplicate check of _add_edge). */
  predicate RowOk(v: Vertex, bound: VertexId) {
    && v.id < bound
    && (forall k :: 0 <= k < |v.edges| ==> v.edges[k].to < bound)
    && (forall k, l :: 0 <= k < l < |v.edges| ==> v.edges[k].to != v.edges[l].to)
  }

  /** The invariant of every graph the operations build from new_graph:
      `vertex_count` counts the vertices, vertex addresses are distinct and
      already allocated, no edge is duplicated, and since a vertex never loses
      its first edge, `edge_count` is at least the number of vertices with edges. */
  predicate WellFormed(g: Graph) {
    && g.vertexCount == |g.vertices|
    && (forall i :: 0 <= i < |g.vertices| ==> RowOk(g.vertices[i], g.nextId))
    && (forall i, j :: 0 <= i < j < |g.vertices| ==> g.vertices[i].id != g.vertices[j].id)
    && NonEmptyRows(g.vertices) <= g.edgeCount
  }

  /** Two graphs with the same vertices (addresses and labels) in the same order;
      only edge lists may differ. */
  predicate SameVertices(g: Graph, r: Graph) {
    && |r.vertices| == |g.vertices|
    && (forall j :: 0 <= j < |g.vertices| ==> r.vertices[j].id == g.vertices[j].id && r.vertices[j].data == g.vertices[j].data)
    && r.vertexCount == g.vertexCount
    && r.nextId == g.nextId
  }

  lemma {:induction false} NonEmptyRowsAppend(vs: seq<Vertex>, v: Vertex)
    ensures NonEmptyRows(vs + [v]) == NonEmptyRows(vs) + RowMark(v)
  {
    if vs != [] {
      assert (vs + [v])[1..] == vs[1..] + [v];
      NonEmptyRowsAppend(vs[1..], v);
    }
  }

  lemma {:induction false} NonEmptyRowsUpdate(vs: seq<Vertex>, i: nat, v: Vertex)
    requires i < |vs|
    ensures NonEmptyRows(vs[i := v]) == NonEmptyRows(vs) - RowMark(vs[i]) + RowMark(v)
  {
    if i > 0 {
      assert vs[i := v][1..] == vs[1..][i - 1 := v];
      NonEmptyRowsUpdate(vs[1..], i - 1, v);
    }
  }

  lemma {:induction false} NonEmptyRowsRemove(vs: seq<Vertex>, i: nat)
    requires i < |vs|
    ensures NonEmptyRows(RemoveAt(vs, i)) == NonEmptyRows(vs) - RowMark(vs[i])
  {
    if i == 0 {
      assert RemoveAt(vs, 0) == vs[1..];
    } else {
      assert RemoveAt(vs, i)[1..] == RemoveAt(vs[1..], i - 1);
      NonEmptyRowsRemove(vs[1..], i - 1);
    }
  }

  /** new_graph: no vertices, both counters zero. */
  function NewGraph(): (g: Graph)
    ensures WellFormed(g)
    ensures Labels(g) == [] && g.vertexCount == 0 && g.edgeCount == 0
  {
    Graph([], 0, 0, 0)
  }

  /** get_vertex, as a position: the first vertex holding the pointer `data`;
      None for NULL or when no vertex holds it. */
  function Locate(g: Graph, data: Option<MapRef>): (r: Option<nat>)
    ensures r.Some? ==> data.Some? && r.value < |g.vertices| && g.vertices[r.value].data == data.value
    ensures r.Some? ==> forall j :: 0 <= j < r.value ==> g.vertices[j].data != data.value
    ensures r.None? <==> data.None? || forall j :: 0 <= j < |g.vertices| ==> g.vertices[j].data != data.value
  {
    if data.None? then None else FirstIndex(g.vertices, HasLabel(data.value))
  }

  /** get_vertex: the first vertex holding the label pointer, or NULL when no vertex holds it. */
  function GetVertex(g: Graph, data: Option<MapRef>): (r: Option<Vertex>)
    ensures r.None? <==> data.None? || data.value !in Labels(g)
    ensures r.Some? ==> r.value in g.vertices && r.value.data == data.value
    ensures r.Some? ==> Locate(g, data).Some? && r.value == g.vertices[Locate(g, data).value]
  {
    match Locate(g, data)
    case None => None
    case Some(i) => Some(g.vertices[i])
  }

  /** A graph whose first vertices carry the labels of `g` extends `g`'s label sequence. */
  lemma LabelsPrefix(g: Graph, r: Graph)
    requires |g.vertices| <= |r.vertices|
    requires forall j :: 0 <= j < |g.vertices| ==> r.vertices[j].data == g.vertices[j].data
    ensures Labels(g) <= Labels(r)
  {
    assert Labels(g) == Labels(r)[..|g.vertices|];
  }

  /** Locating a label only depends on the vertices' labels. */
  lemma LocateSameVertices(g: Graph, r: Graph)
    requires SameVertices(g, r)
    ensures forall x :: Locate(r, x) == Locate(g, x)
  {
    forall x
      ensures Locate(r, x) == Locate(g, x)
    {
      match Locate(g, x)
      case None =>
      case Some(i) =>
        if Locate(r, x).Some? {
          var i' := Locate(r, x).value;
          assert !(i' < i) && !(i < i');
        }
    }
  }

  /** add_vertex: a NULL label is ignored; otherwise a new vertex with no edges
      is linked at the tail (no check for a vertex already holding the label)
      and `vertex_count` goes up by one. */
  function AddVertex(g: Graph, data: Option<MapRef>): (r: Graph)
    ensures data.None? ==> r == g
    ensures data.Some? ==> r.vertices == g.vertices + [Vertex(g.nextId, data.value, [])]
    ensures data.Some? ==> Labels(r) == Labels(g) + [data.value]
    ensures data.Some? ==> r.vertexCount == g.vertexCount + 1
    ensures r.edgeCount == g.edgeCount && g.nextId <= r.nextId
    ensures WellFormed(g) ==> WellFormed(r)
  {
    if data.None? then g
    else
      var v := Vertex(g.nextId, data.value, []);
      NonEmptyRowsAppend(g.vertices, v);
      Graph(g.vertices + [v], g.vertexCount + 1, g.edgeCount, g.nextId + 1)
  }

  /** The inner walk of delete_vertex's cleanup. The walk stands on an edge of
      the vertex `from`, and `rest` holds the edges after it. An edge whose
      `from` is the deleted vertex `del` is unlinked, and the walk then steps
      onto its successor without testing it. None stands for the walk stepping
      onto NULL and then dereferencing it. */
  function SweepAfter(from: VertexId, rest: seq<Edge>, del: VertexId): (r: Option<seq<Edge>>)
    ensures from != del ==> r == Some(rest)
    decreases |rest|
  {
    if rest == [] then Some([])
    else if from == del then
      if |rest| == 1 then None
      else match SweepAfter(from, rest[2..], del)
        case None => None
        case Some(t) => Some([rest[1]] + t)
    else match SweepAfter(from, rest[1..], del)
      case None => None
      case Some(t) =>
        assert from != del ==> [rest[0]] + t == rest;
        Some([rest[0]] + t)
  }

  /** delete_vertex's cleanup of one remaining vertex. If the first edge targets
      the deleted vertex, only a local pointer moves. Otherwise the walk above
      runs over the edges after the first. */
  function SweepRow(v: Vertex, del: VertexId): (r: Option<Vertex>)
    ensures v.id != del ==> r == Some(v)
  {
    if v.edges == [] then Some(v)
    else if v.edges[0].to == del then Some(v)
    else match SweepAfter(v.id, v.edges[1..], del)
      case None => None
      case Some(t) =>
        assert v.id != del ==> [v.edges[0]] + t == v.edges;
        Some(v.(edges := [v.edges[0]] + t))
  }

  /** delete_vertex's cleanup over every remaining vertex, in list order. */
  function SweepAll(vs: seq<Vertex>, del: VertexId): (r: Option<seq<Vertex>>)
    ensures (forall i :: 0 <= i < |vs| ==> vs[i].id != del) ==> r == Some(vs)
  {
    if vs == [] then Some([])
    else match (SweepRow(vs[0], del), SweepAll(vs[1..], del))
      case (Some(v), Some(t)) =>
        assert (forall i :: 0 <= i < |vs| ==> vs[i].id != del) ==> [v] + t == vs;
        Some([v] + t)
      case _ => None
  }

  /** delete_vertex: nothing happens for an empty graph or a label no vertex
      holds. Otherwise the first vertex holding the label is unlinked and
      `vertex_count` drops by one. The cleanup pass leaves every other edge
      list as it was, edges pointing at the removed vertex included, and
      `edge_count` is not touched. */
  function DeleteVertex(g: Graph, data: Option<MapRef>): (r: Graph)
    requires WellFormed(g)
    ensures WellFormed(r)
    ensures Locate(g, data).None? ==> r == g
    ensures Locate(g, data).Some? ==> r.vertices == RemoveAt(g.vertices, Locate(g, data).value)
    ensures Locate(g, data).Some? ==> r.vertexCount == g.vertexCount - 1
    ensures r.edgeCount == g.edgeCount && r.nextId == g.nextId
  {
    if g.vertexCount == 0 then g
    else match Locate(g, data)
      case None => g
      case Some(i) =>
        var rest := RemoveAt(g.vertices, i);
        var del := g.vertices[i].id;
        assert forall j :: 0 <= j < |rest| ==> rest[j].id != del by {
          forall j | 0 <= j < |rest|
            ensures rest[j].id != del
          {
            if j < i {
              assert rest[j] == g.vertices[j];
            } else {
              assert rest[j] == g.vertices[j + 1];
            }
          }
        }
        NonEmptyRowsRemove(g.vertices, i);
        Graph(SweepAll(rest, del).value, g.vertexCount - 1, g.edgeCount, g.nextId)
  }

  /** modify_vertex: NULL for either label does nothing; otherwise delete_vertex
      of the old label followed by add_vertex of the new one. The new vertex
      starts without edges: this is not a relabelling. */
  function ModifyVertex(g: Graph, oldLabel: Option<MapRef>, newLabel: Option<MapRef>): (r: Graph)
    requires WellFormed(g)
    ensures WellFormed(r)
    ensures oldLabel.None? || newLabel.None? ==> r == g
    ensures oldLabel.Some? && newLabel.Some? ==>
      r.vertices == (if Locate(g, oldLabel).Some? then RemoveAt(g.vertices, Locate(g, oldLabel).value) else g.vertices)
                    + [Vertex(g.nextId, newLabel.value, [])]
    ensures oldLabel.Some? && newLabel.Some? ==>
      && |r.vertices| == |g.vertices| + 1 - (if Locate(g, oldLabel).Some? then 1 else 0)
      && r.vertices[|r.vertices| - 1].data == newLabel.value
      && r.vertices[|r.vertices| - 1].edges == []
      && r.vertexCount == g.vertexCount + 1 - (if Locate(g, oldLabel).Some? then 1 else 0)
    ensures r.edgeCount == g.edgeCount
  {
    if oldLabel.None? || newLabel.None? then g
    else AddVertex(DeleteVertex(g, oldLabel), newLabel)
  }

}

=== FILE: labelmap.dfy ===
/** The association list used as a vertex label (struct map in graph.h).
    Entries are kept in list order from `node_head`; `put` prepends. Keys are
    matched by content, as `strcmp` does, while `is_equal` compares values by
    address. A C string is therefore modelled with both: its address and its
    characters. */
module LabelMap {
  import opened Support
  import CStrings

  /** A `char *`: the address `ref` and the characters `text` before the terminator. */
  datatype Str = Str(ref: nat, text: string)

  /** A struct map_node: one key/value pair. */
  datatype Entry = Entry(key: Str, value: Str)

  /** A struct map: the node chain from node_head and the stored `size` counter. */
  datatype Map = Map(entries: seq<Entry>, size: int)

  /** Result of an operation that changes a map and reports 1 or 0. */
  datatype Change = Change(next: Map, code: int)

  /** The node test of the key scans: `strcmp(current->key, key) == 0`. */
  function KeyIs(key: Str): Entry -> bool {
    (e: Entry) => e.key.text == key.text
  }

  /** On C strings the key test of the scans is str_comp: a node matches
      exactly when str_comp of its key and the sought key is 1. */
  lemma KeyIsStrComp(e: Entry, key: Str)
    requires CStrings.IsCString(e.key.text) && CStrings.IsCString(key.text)
    ensures KeyIs(key)(e) <==> CStrings.StrComp(e.key.text, key.text) == 1
  {
  }

  /** The node test of `contains_value`: `strcmp(current->value, value) == 0`. */
  function ValueIs(value: Str): Entry -> bool {
    (e: Entry) => e.value.text == value.text
  }

  /** The invariant every map built by make_map/put/remove_node keeps:
      `size` counts the nodes and no two nodes share a key. */
  predicate Valid(m: Map) {
    && m.size == |m.entries|
    && forall i, j :: 0 <= i < j < |m.entries| ==> m.entries[i].key.text != m.entries[j].key.text
  }

  /** make_map: an empty, valid map. */
  function MakeMap(): (m: Map)
    ensures Valid(m)
    ensures forall k: Str :: !ContainsKey(m, k)
  {
    Map([], 0)
  }

  /** contains_key: 1 exactly when some node's key has the same characters. */
  function ContainsKey(m: Map, key: Str): (r: bool)
    ensures r <==> exists i :: 0 <= i < |m.entries| && m.entries[i].key.text == key.text
  {
    if m.entries == [] then false
    else FirstIndex(m.entries, KeyIs(key)).Some?
  }

  /** contains_value: 1 exactly when some node's value has the same characters. */
  function ContainsValue(m: Map, value: Str): (r: bool)
    ensures r <==> exists i :: 0 <= i < |m.entries| && m.entries[i].value.text == value.text
  {
    if m.entries == [] then false
    else FirstIndex(m.entries, ValueIs(value)).Some?
  }

  /** map_get: the value pointer of the first node whose key matches, or NULL. */
  function MapGet(m: Map, key: Str): (r: Option<Str>)
    ensures r.None? <==> !ContainsKey(m, key)
    ensures r.Some? ==> exists i :: 0 <= i < |m.entries| && m.entries[i].key.text == key.text && m.entries[i].value == r.value
    ensures Valid(m) ==> forall i :: 0 <= i < |m.entries| && m.entries[i].key.text == key.text ==> r == Some(m.entries[i].value)
  {
    if m.entries == [] then None
    else match FirstIndex(m.entries, KeyIs(key))
      case None => None
      case Some(i) => Some(m.entries[i].value)
  }

  /** put: rejects (0, map unchanged) a key that is already present; otherwise
      prepends the pair, bumps `size` and reports 1. */
  function Put(m: Map, key: Str, value: Str): (r: Change)
    ensures r.code == 0 || r.code == 1
    ensures r.code == 1 <==> !ContainsKey(m, key)
    ensures r.code == 0 ==> r.next == m
    ensures r.code == 1 ==> r.next.entries == [Entry(key, value)] + m.entries && r.next.size == m.size + 1
    ensures r.code == 1 ==> MapGet(r.next, key) == Some(value)
    ensures forall k: Str :: k.text != key.text ==> MapGet(r.next, k) == MapGet(m, k)
    ensures ContainsKey(r.next, key)
    ensures Valid(m) ==> Valid(r.next)
  {
    if ContainsKey(m, key) then Change(m, 0)
    else
      var next := Map([Entry(key, value)] + m.entries, m.size + 1);
      assert next.entries[1..] == m.entries;
      Change(next, 1)
  }

  /** remove_node: 0 with no change for an empty map or an absent key;
      otherwise unlinks the first node with that key, decrements `size`, reports 1. */
  function RemoveNode(m: Map, key: Str): (r: Change)
    ensures r.code == 0 || r.code == 1
    ensures r.code == 1 <==> ContainsKey(m, key)
    ensures r.code == 0 ==> r.next == m
    ensures r.code == 1 ==> r.next.size == m.size - 1 && |r.next.entries| == |m.entries| - 1
    ensures Valid(m) ==> Valid(r.next)
    ensures Valid(m) ==> !ContainsKey(r.next, key)
    ensures Valid(m) ==> forall k: Str :: k.text != key.text ==> MapGet(r.next, k) == MapGet(m, k)
  {
    if m.entries == [] then Change(m, 0)
    else if !ContainsKey(m, key) then Change(m, 0)
    else
      var i := FirstIndex(m.entries, KeyIs(key)).value;
      var next := Map(RemoveAt(m.entries, i), m.size - 1);
      if Valid(m) then RemovePreservesLookups(m, key, i); Change(next, 1)
      else Change(next, 1)
  }

  /** Unlinking the node holding `key` leaves every other key's lookup alone. */
  lemma RemovePreservesLookups(m: Map, key: Str, i: nat)
    requires i < |m.entries| && m.entries[i].key.text == key.text
    requires Valid(m)
    ensures Valid(Map(RemoveAt(m.entries, i), m.size - 1))
    ensures !ContainsKey(Map(RemoveAt(m.entries, i), m.size - 1), key)
    ensures forall k: Str :: k.text != key.text ==> MapGet(Map(RemoveAt(m.entries, i), m.size - 1), k) == MapGet(m, k)
  {
    var n := Map(RemoveAt(m.entries, i), m.size - 1);
    forall k: Str | k.text != key.text
      ensures MapGet(n, k) == MapGet(m, k)
    {
      if ContainsKey(m, k) {
        var j :| 0 <= j < |m.entries| && m.entries[j].key.text == k.text;
        var j' := if j < i then j else j - 1;
        assert n.entries[j'] == m.entries[j];
      } else {
        assert !ContainsKey(n, k);
      }
    }
  }

  /** The test of `is_equal` on one node of the first map: the second map has the
      key and its value is the very same pointer (`!=` on `char *`). */
  predicate SameValuePointer(e: Entry, m2: Map) {
    match MapGet(m2, e.key)
    case None => false
    case Some(v) => v.ref == e.value.ref
  }

  function AllSamePointers(es: seq<Entry>, m2: Map): (r: bool)
    ensures r <==> forall i :: 0 <= i < |es| ==> SameValuePointer(es[i], m2)
  {
    if es == [] then true
    else SameValuePointer(es[0], m2) && AllSamePointers(es[1..], m2)
  }

  /** is_equal: equal sizes, and every key of `m1` maps in `m2` to the same value pointer. */
  function IsEqual(m1: Map, m2: Map): (r: int)
    ensures r == 0 || r == 1
    ensures r == 1 <==> m1.size == m2.size && forall i :: 0 <= i < |m1.entries| ==> SameValuePointer(m1.entries[i], m2)
  {
    if m1.size != m2.size then 0
    else if AllSamePointers(m1.entries, m2) then 1
    else 0
  }

  /** Every valid map is equal to itself. */
  lemma IsEqualReflexive(m: Map)
    requires Valid(m)
    ensures IsEqual(m, m) == 1
  {
    forall i | 0 <= i < |m.entries|
      ensures SameValuePointer(m.entries[i], m)
    {
      assert MapGet(m, m.entries[i].key) == Some(m.entries[i].value);
    }
  }

  /** Two maps holding the same characters under separately allocated value
      strings are not equal: `is_equal` compares values by address. */
  lemma IsEqualComparesAddresses()
    ensures var m1 := Put(MakeMap(), Str(1, "id"), Str(2, "a")).next;
            var m2 := Put(MakeMap(), Str(3, "id"), Str(4, "a")).next;
            ContainsValue(m1, Str(5, "a")) && ContainsValue(m2, Str(5, "a")) && IsEqual(m1, m2) == 0
  {
    var m1 := Put(MakeMap(), Str(1, "id"), Str(2, "a")).next;
    var m2 := Put(MakeMap(), Str(3, "id"), Str(4, "a")).next;
    assert m1.entries[0].value.text == "a";
    assert m2.entries[0].value.text == "a";
    assert MapGet(m2, m1.entries[0].key) == Some(Str(4, "a"));
  }

  /** put of a new key followed by remove_node of that key restores the map. */
  lemma PutThenRemove(m: Map, key: Str, value: Str)
    requires !ContainsKey(m, key)
    ensures RemoveNode(Put(m, key, value).next, key) == Change(m, 1)
  {
    var p := Put(m, key, value).next;
    assert FirstIndex(p.entries, KeyIs(key)) == Some(0);
    assert RemoveAt(p.entries, 0) == m.entries;
  }
}

=== FILE: queries.dfy ===
/** The read-only walks of graph.c that collect a graph's contents into a
    struct list: _get_edges, get_edge_neighbors and get_all_vertices. Each
    builds its result with make_list and one add_tail per node visited. */
module GraphQueries {
  import opened Support
  import opened GraphEngine
  import opened GraphEdges
  import GenericList

  /** The test "this vertex lives at address `id`". */
  function HasId(id: VertexId): Vertex -> bool {
    (v: Vertex) => v.id == id
  }

  /** Following `edge->to`: the label of the live vertex at address `id`, or
      None when no vertex in the list has that address any more. */
  function LabelAt(g: Graph, id: VertexId): (r: Option<MapRef>)
    ensures r.None? <==> forall j :: 0 <= j < |g.vertices| ==> g.vertices[j].id != id
    ensures r.Some? ==> exists j :: 0 <= j < |g.vertices| && g.vertices[j].id == id && g.vertices[j].data == r.value
  {
    match FirstIndex(g.vertices, HasId(id))
    case None => None
    case Some(j) => Some(g.vertices[j].data)
  }

  /** Every edge of `es` still points at a vertex of `g`, so `edge->to->data` may be read. */
  predicate TargetsLive(g: Graph, es: seq<Edge>) {
    forall k :: 0 <= k < |es| ==> LabelAt(g, es[k].to).Some?
  }

  /** The payloads of `es`, in order. */
  function Payloads(es: seq<Edge>): (r: seq<string>)
    ensures |r| == |es|
    ensures forall k :: 0 <= k < |es| ==> r[k] == es[k].data
  {
    seq(|es|, k requires 0 <= k < |es| => es[k].data)
  }

  lemma PayloadsAppend(es: seq<Edge>, e: Edge)
    ensures Payloads(es + [e]) == Payloads(es) + [e.data]
  {
    assert |Payloads(es + [e])| == |Payloads(es) + [e.data]|;
  }

  /** The labels of the vertices the edges of `es` point at, in order. */
  function TargetLabels(g: Graph, es: seq<Edge>): (r: seq<MapRef>)
    requires TargetsLive(g, es)
    ensures |r| == |es|
    ensures forall k :: 0 <= k < |es| ==> Some(r[k]) == LabelAt(g, es[k].to)
  {
    seq(|es|, k requires 0 <= k < |es| => LabelAt(g, es[k].to).value)
  }

  /** _get_edges: the payloads of the edges of the vertex get_vertex finds for
      `data`, in list order. The C code dereferences the vertex it looks up, so
      the label must have a vertex. */
  function GetEdges(g: Graph, data: Option<MapRef>): (r: GenericList.List<string>)
    requires GetVertex(g, data).Some?
    ensures GenericList.Valid(r)
    ensures |r.items| == |OutEdges(g, data.value)|
    ensures forall k :: 0 <= k < |r.items| ==> r.items[k] == OutEdges(g, data.value)[k].data
    ensures r.items == Payloads(OutEdges(g, data.value))
  {
    GenericList.AddAllTail(GenericList.MakeList(), Payloads(GetVertex(g, data).value.edges))
  }

  /** get_edge_neighbors: the labels of the targets of the edges of the vertex
      get_vertex finds for `data`, in list order. The C code dereferences the
      vertex and every `edge->to`, so the label must have a vertex and every
      target must still be in the graph (delete_vertex leaves dangling edges). */
  function GetEdgeNeighbors(g: Graph, data: Option<MapRef>): (r: GenericList.List<MapRef>)
    requires GetVertex(g, data).Some?
    requires TargetsLive(g, OutEdges(g, data.value))
    ensures GenericList.Valid(r)
    ensures |r.items| == |OutEdges(g, data.value)|
    ensures forall k :: 0 <= k < |r.items| ==> Some(r.items[k]) == LabelAt(g, OutEdges(g, data.value)[k].to)
    ensures r.items == TargetLabels(g, OutEdges(g, data.value))
  {
    GenericList.AddAllTail(GenericList.MakeList(), TargetLabels(g, GetVertex(g, data).value.edges))
  }

  /** get_all_vertices: the labels of all vertices, in vertex-list order. */
  function GetAllVertices(g: Graph): (r: GenericList.List<MapRef>)
    ensures GenericList.Valid(r)
    ensures r.items == Labels(g)
    ensures WellFormed(g) ==> GenericList.Size(r) == g.vertexCount
  {
    var ls := Labels(g);
    GenericList.AddAllTail(GenericList.MakeList(), ls)
  }

  /** The payload of every edge _find_edge reports shows up in _get_edges. */
  lemma GetEdgesListsPayload(g: Graph, v: MapRef, f: MapRef)
    requires FindEdge(g, Some(v), Some(f))
    ensures Payload(g, v, f).Some?
    ensures Payload(g, v, f).value in GetEdges(g, Some(v)).items
  {
    var es := OutEdges(g, v);
    var k := FirstIndex(es, TargetIs(IdOf(g, f))).value;
    assert GetEdges(g, Some(v)).items[k] == es[k].data;
  }

  /** A new edge added by _add_edge shows up last in _get_edges, carrying its payload. */
  lemma GetEdgesAfterAddEdge(g: Graph, v: MapRef, f: MapRef, data: string)
    requires WellFormed(g)
    requires Locate(g, Some(v)).Some?
    requires !FindEdge(g, Some(v), Some(f))
    ensures var r := AddEdgeWithData(g, Some(v), Some(f), data);
      && Locate(r, Some(v)).Some?
      && GetEdges(r, Some(v)).items == GetEdges(g, Some(v)).items + [data]
  {
    AddEdgeLinks(g, v, f, data);
    AddEdgeAppends(g, v, f, data);
    var r := AddEdgeWithData(g, Some(v), Some(f), data);
    PayloadsAppend(OutEdges(g, v), Edge(IdOf(r, f), data));
  }

  /** With distinct labels, the vertex an edge reaches is the one get_vertex finds for its label. */
  lemma LabelAtLocate(g: Graph, id: VertexId, x: MapRef)
    requires NoDuplicates(Labels(g))
    requires LabelAt(g, id) == Some(x)
    ensures Locate(g, Some(x)).Some? && IdOf(g, x) == id
  {
    var j :| 0 <= j < |g.vertices| && g.vertices[j].id == id && g.vertices[j].data == x;
    var i := Locate(g, Some(x)).value;
    assert Labels(g)[i] == Labels(g)[j];
  }

  /** A label reached through an edge of `v` is the target of an edge
      _find_edge reports, when labels are distinct. */
  lemma NeighborIsEdge(g: Graph, v: MapRef, x: MapRef)
    requires NoDuplicates(Labels(g))
    requires Locate(g, Some(v)).Some?
    requires TargetsLive(g, OutEdges(g, v))
    requires x in TargetLabels(g, OutEdges(g, v))
    ensures FindEdge(g, Some(v), Some(x))
  {
    var es := OutEdges(g, v);
    var ns := TargetLabels(g, es);
    var k :| 0 <= k < |ns| && ns[k] == x;
    assert LabelAt(g, es[k].to) == Some(x);
    LabelAtLocate(g, es[k].to, x);
    assert HasEdgeTo(es, IdOf(g, x));
  }

  /** With distinct vertex addresses, following the address of the vertex
      get_vertex finds for `x` leads back to label `x`. */
  lemma LocateLabelAt(g: Graph, x: MapRef)
    requires forall i, j :: 0 <= i < j < |g.vertices| ==> g.vertices[i].id != g.vertices[j].id
    requires Locate(g, Some(x)).Some?
    ensures LabelAt(g, IdOf(g, x)) == Some(x)
  {
    var i := Locate(g, Some(x)).value;
    var j := FirstIndex(g.vertices, HasId(IdOf(g, x))).value;
    assert g.vertices[j].id == g.vertices[i].id;
  }

  /** The target of every edge _find_edge reports is among the labels
      reached through `v`'s edges, when vertex addresses are distinct. */
  lemma EdgeIsNeighbor(g: Graph, v: MapRef, x: MapRef)
    requires forall i, j :: 0 <= i < j < |g.vertices| ==> g.vertices[i].id != g.vertices[j].id
    requires TargetsLive(g, OutEdges(g, v))
    requires FindEdge(g, Some(v), Some(x))
    ensures x in TargetLabels(g, OutEdges(g, v))
  {
    var es := OutEdges(g, v);
    var ns := TargetLabels(g, es);
    var k :| 0 <= k < |es| && es[k].to == IdOf(g, x);
    LocateLabelAt(g, x);
    assert Some(ns[k]) == Some(x);
  }

  /** On a well-formed graph with distinct labels, a label is a neighbour of
      `v` exactly when _find_edge reports the edge from `v` to it. */
  lemma NeighborsMatchFindEdge(g: Graph, v: MapRef, x: MapRef)
    requires WellFormed(g)
    requires NoDuplicates(Labels(g))
    requires GetVertex(g, Some(v)).Some?
    requires TargetsLive(g, OutEdges(g, v))
    ensures x in GetEdgeNeighbors(g, Some(v)).items <==> FindEdge(g, Some(v), Some(x))
  {
    if x in GetEdgeNeighbors(g, Some(v)).items {
      assert x in TargetLabels(g, OutEdges(g, v));
      NeighborIsEdge(g, v, x);
    }
    if FindEdge(g, Some(v), Some(x)) {
      EdgeIsNeighbor(g, v, x);
    }
  }

  /** Unlinking the vertex at position `i` unlinks its label from the label sequence. */
  lemma LabelsRemoveAt(g: Graph, r: Graph, i: nat)
    requires i < |g.vertices|
    requires r.vertices == RemoveAt(g.vertices, i)
    ensures Labels(r) == RemoveAt(Labels(g), i)
  {
    var a := Labels(r);
    var b := RemoveAt(Labels(g), i);
    forall j | 0 <= j < |a|
      ensures a[j] == b[j]
    {
      if j < i {
        assert a[j] == g.vertices[j].data;
      } else {
        assert a[j] == g.vertices[j + 1].data;
      }
    }
  }

  /** delete_vertex of a held label drops exactly that vertex's label from get_all_vertices. */
  lemma AllVerticesAfterDelete(g: Graph, m: MapRef)
    requires WellFormed(g)
    requires Locate(g, Some(m)).Some?
    ensures GetAllVertices(DeleteVertex(g, Some(m))).items == RemoveAt(GetAllVertices(g).items, Locate(g, Some(m)).value)
  {
    LabelsRemoveAt(g, DeleteVertex(g, Some(m)), Locate(g, Some(m)).value);
  }

  /** add_vertex of a new label followed by delete_vertex of it restores the
      vertex list, so get_all_vertices reports what it did before. */
  lemma AddThenDeleteVertex(g: Graph, m: MapRef)
    requires WellFormed(g)
    requires m !in Labels(g)
    ensures DeleteVertex(AddVertex(g, Some(m)), Some(m)).vertices == g.vertices
    ensures GetAllVertices(DeleteVertex(AddVertex(g, Some(m)), Some(m))).items == GetAllVertices(g).items
  {
    var g1 := AddVertex(g, Some(m));
    var n := |g.vertices|;
    assert Locate(g, Some(m)).None? by {
      forall j | 0 <= j < n
        ensures g.vertices[j].data != m
      {
        assert Labels(g)[j] == g.vertices[j].data;
      }
    }
    assert Locate(g1, Some(m)) == Some(n) by {
      FirstIndexAppend(g.vertices, Vertex(g.nextId, m, []), HasLabel(m));
    }
    assert RemoveAt(g1.vertices, n) == g.vertices;
  }
}

=== FILE: scenarios.dfy ===
/** The graph scenario of the test driver (Graphiti/semantics/test.c): three
    label maps become vertices, the first is linked to the other two, and the
    three queries are read back. Further scenarios pin down the behaviours of
    graph.c that a reader might not expect: the `edge_count` counter and the
    edges that outlive delete_vertex. */
module Scenarios {
  import opened Support
  import opened GraphEngine
  import opened GraphEdges
  import opened GraphQueries

  /** The label maps e1, e2, e3 of the driver, by address. */
  const E1: MapRef := 1
  const E2: MapRef := 2
  const E3: MapRef := 3

  /** new_graph followed by add_vertex of e1, e2 and e3. */
  function ThreeVertices(): (g: Graph)
    ensures WellFormed(g)
    ensures Labels(g) == [E1, E2, E3]
    ensures g.vertexCount == 3 && g.edgeCount == 0
  {
    AddVertex(AddVertex(AddVertex(NewGraph(), Some(E1)), Some(E2)), Some(E3))
  }

  /** The graph after the three add_vertex calls: addresses 0, 1, 2 in insertion order. */
  const Rows0: seq<Vertex> := [Vertex(0, E1, []), Vertex(1, E2, []), Vertex(2, E3, [])]

  /** The graph after _add_edge(e1, e2, "five"). */
  const Rows1: seq<Vertex> := [Vertex(0, E1, [Edge(1, "five")]), Vertex(1, E2, []), Vertex(2, E3, [])]

  /** The graph after _add_edge(e1, e3, "six"). */
  const Rows2: seq<Vertex> := [Vertex(0, E1, [Edge(1, "five"), Edge(2, "six")]), Vertex(1, E2, []), Vertex(2, E3, [])]

  lemma ThreeVerticesRows()
    ensures ThreeVertices() == Graph(Rows0, 3, 0, 3)
  {
  }

  /** _add_edge of a missing edge between two labels that already have vertices
      appends the edge to `v`'s row and does nothing else. */
  lemma LinkBetweenPresent(g: Graph, v: MapRef, f: MapRef, data: string)
    requires Locate(g, Some(v)).Some? && Locate(g, Some(f)).Some?
    requires !HasEdgeTo(OutEdges(g, v), IdOf(g, f))
    ensures AddEdgeWithData(g, Some(v), Some(f), data) == AppendEdge(g, Locate(g, Some(v)).value, Edge(IdOf(g, f), data))
  {
  }

  /** Where get_vertex finds each driver label, in a graph whose rows carry
      e1, e2, e3 in that order. */
  lemma LocateDriverLabels(g: Graph)
    requires |g.vertices| == 3
    requires g.vertices[0].data == E1 && g.vertices[1].data == E2 && g.vertices[2].data == E3
    ensures Locate(g, Some(E1)) == Some(0)
    ensures Locate(g, Some(E2)) == Some(1)
    ensures Locate(g, Some(E3)) == Some(2)
  {
    assert Locate(g, Some(E2)).Some?;
    assert Locate(g, Some(E3)).Some?;
  }

  /** _add_edge(e1, e2, "five") on the three vertices: the first edge of e1,
      so `edge_count` becomes 1. */
  lemma FirstLink()
    ensures AddEdgeWithData(Graph(Rows0, 3, 0, 3), Some(E1), Some(E2), "five") == Graph(Rows1, 3, 1, 3)
  {
    var g := Graph(Rows0, 3, 0, 3);
    LocateDriverLabels(g);
    LinkBetweenPresent(g, E1, E2, "five");
    assert AppendEdge(g, 0, Edge(1, "five")).vertices == Rows1;
  }

  /** _add_edge(e1, e3, "six") next: appended after "five"; e1's list was not
      empty, so `edge_count` stays 1. */
  lemma SecondLink()
    ensures AddEdgeWithData(Graph(Rows1, 3, 1, 3), Some(E1), Some(E3), "six") == Graph(Rows2, 3, 1, 3)
  {
    var g := Graph(Rows1, 3, 1, 3);
    LocateDriverLabels(g);
    assert OutEdges(g, E1) == [Edge(1, "five")];
    LinkBetweenPresent(g, E1, E3, "six");
    var r := AppendEdge(g, 0, Edge(2, "six"));
    assert r.vertices[0].edges == [Edge(1, "five")] + [Edge(2, "six")] == Rows2[0].edges;
    assert r.vertices[0] == Rows2[0] && r.vertices[1] == Rows2[1] && r.vertices[2] == Rows2[2];
    assert r.vertices == Rows2;
  }

  /** ThreeVertices followed by _add_edge(e1, e2, "five") and _add_edge(e1, e3, "six"). */
  function DriverGraph(): (g: Graph)
    ensures WellFormed(g)
  {
    AddEdgeWithData(AddEdgeWithData(ThreeVertices(), Some(E1), Some(E2), "five"), Some(E1), Some(E3), "six")
  }

  /** The driver's graph is the three vertices with e1's two edges; two
      edges hang off one vertex, so `edge_count` is 1. */
  lemma DriverGraphRows()
    ensures DriverGraph() == Graph(Rows2, 3, 1, 3)
    ensures DriverGraph().edgeCount == 1
  {
    ThreeVerticesRows();
    FirstLink();
    SecondLink();
  }

  /** get_all_vertices on the driver's graph: e1, e2, e3. */
  lemma AllVerticesOfRows2()
    ensures GetAllVertices(Graph(Rows2, 3, 1, 3)).items == [E1, E2, E3]
  {
    var ls := Labels(Graph(Rows2, 3, 1, 3));
    assert ls[0] == E1 && ls[1] == E2 && ls[2] == E3;
  }

  /** _get_edges(e1) on the driver's graph: "five" then "six". */
  lemma EdgesOfRows2()
    ensures GetVertex(Graph(Rows2, 3, 1, 3), Some(E1)).Some?
    ensures GetEdges(Graph(Rows2, 3, 1, 3), Some(E1)).items == ["five", "six"]
  {
    var g := Graph(Rows2, 3, 1, 3);
    LocateDriverLabels(g);
    var ps := Payloads(OutEdges(g, E1));
    assert ps[0] == "five" && ps[1] == "six";
  }

  /** The vertices at addresses 1 and 2 of the driver's graph hold e2 and e3. */
  lemma TargetsOfRows2()
    ensures LabelAt(Graph(Rows2, 3, 1, 3), 1) == Some(E2)
    ensures LabelAt(Graph(Rows2, 3, 1, 3), 2) == Some(E3)
  {
    var vs := Rows2;
    assert FirstIndex(vs, HasId(1)) == Some(1) by {
      assert FirstIndex(vs[1..], HasId(1)) == Some(0);
    }
    assert FirstIndex(vs, HasId(2)) == Some(2) by {
      assert FirstIndex(vs[2..], HasId(2)) == Some(0);
      assert vs[1..][1..] == vs[2..];
    }
  }

  /** get_edge_neighbors of a vertex with two edges lists the two targets' labels. */
  lemma NeighborsOfTwo(g: Graph, v: MapRef, a: MapRef, b: MapRef)
    requires Locate(g, Some(v)).Some?
    requires |OutEdges(g, v)| == 2
    requires LabelAt(g, OutEdges(g, v)[0].to) == Some(a) && LabelAt(g, OutEdges(g, v)[1].to) == Some(b)
    ensures GetVertex(g, Some(v)).Some? && TargetsLive(g, OutEdges(g, v))
    ensures GetEdgeNeighbors(g, Some(v)).items == [a, b]
  {
    var ns := TargetLabels(g, OutEdges(g, v));
    assert Some(ns[0]) == Some(a) && Some(ns[1]) == Some(b);
  }

  /** get_edge_neighbors(e1) on the driver's graph: e2 then e3. */
  lemma NeighborsOfRows2()
    ensures GetVertex(Graph(Rows2, 3, 1, 3), Some(E1)).Some?
    ensures TargetsLive(Graph(Rows2, 3, 1, 3), OutEdges(Graph(Rows2, 3, 1, 3), E1))
    ensures GetEdgeNeighbors(Graph(Rows2, 3, 1, 3), Some(E1)).items == [E2, E3]
  {
    var g := Graph(Rows2, 3, 1, 3);
    LocateDriverLabels(g);
    TargetsOfRows2();
    assert OutEdges(g, E1) == Rows2[0].edges;
    NeighborsOfTwo(g, E1, E2, E3);
  }

  /** The driver reads back e1, e2, e3 from get_all_vertices, "five" and "six"
      from _get_edges(e1), and e2, e3 from get_edge_neighbors(e1); `edge_count`
      is 1 although the graph holds two edges. */
  lemma DriverScenario()
    ensures var g := DriverGraph();
      && GetAllVertices(g).items == [E1, E2, E3]
      && GetVertex(g, Some(E1)).Some?
      && GetEdges(g, Some(E1)).items == ["five", "six"]
      && TargetsLive(g, OutEdges(g, E1))
      && GetEdgeNeighbors(g, Some(E1)).items == [E2, E3]
      && g.edgeCount == 1
  {
    DriverGraphRows();
    AllVerticesOfRows2();
    EdgesOfRows2();
    NeighborsOfRows2();
  }

  /** A second _add_edge(e1, e2, ...) is ignored: the edge keeps its first payload. */
  lemma DuplicateEdgeIgnored(data: string)
    ensures AddEdgeWithData(Graph(Rows2, 3, 1, 3), Some(E1), Some(E2), data) == Graph(Rows2, 3, 1, 3)
    ensures Payload(Graph(Rows2, 3, 1, 3), E1, E2) == Some("five")
  {
    var g := Graph(Rows2, 3, 1, 3);
    LocateDriverLabels(g);
    assert OutEdges(g, E1)[0].to == IdOf(g, E2);
    assert FindEdge(g, Some(E1), Some(E2));
    AddEdgeLinks(g, E1, E2, data);
  }

  /** delete_vertex(e2) unlinks e2's vertex but leaves e1's edge to it in place:
      the edge now points at no vertex, so a later get_edge_neighbors(e1)
      would read freed memory. */
  lemma DeleteLeavesDanglingEdge()
    ensures WellFormed(Graph(Rows2, 3, 1, 3))
    ensures var r := DeleteVertex(Graph(Rows2, 3, 1, 3), Some(E2));
      && r.vertices == [Rows2[0], Rows2[2]]
      && OutEdges(r, E1) == [Edge(1, "five"), Edge(2, "six")]
      && LabelAt(r, 1).None?
      && !TargetsLive(r, OutEdges(r, E1))
  {
    var g := Graph(Rows2, 3, 1, 3);
    LocateDriverLabels(g);
    assert WellFormed(g) by {
      DriverGraphRows();
    }
    var r := DeleteVertex(g, Some(E2));
    assert r.vertices == [Rows2[0], Rows2[2]];
    assert Locate(r, Some(E1)) == Some(0);
    assert OutEdges(r, E1)[0].to == 1;
  }
}

=== FILE: support.dfy ===
/** Small sequence helpers shared by the map, list and graph models.
    The C code walks singly linked lists from their head; a walk that stops at
    the first node satisfying a test is `FirstIndex`, an unlink is `RemoveAt`. */
module Support {

  /** A value that may be absent; stands for a pointer that may be NULL. */
  datatype Option<+T> = None | Some(value: T) {

    /** The held value, or `default` when absent. */
    function GetOr(default: T): T {
      match this
      case Some(v) => v
      case None => default
    }
  }

  /** Position of the first element satisfying `p`, scanning from the head. */
  function FirstIndex<T>(s: seq<T>, p: T -> bool): (r: Option<nat>)
    ensures r.Some? ==> r.value < |s| && p(s[r.value])
    ensures r.Some? ==> forall j :: 0 <= j < r.value ==> !p(s[j])
    ensures r.None? <==> forall j :: 0 <= j < |s| ==> !p(s[j])
  {
    if s == [] then None
    else if p(s[0]) then Some(0)
    else match FirstIndex(s[1..], p)
      case None => None
      case Some(k) => Some(k + 1)
  }

  /** Scanning a sequence extended at the tail finds what the scan of the
      original finds, and otherwise tests the new last element. */
  lemma {:induction false} FirstIndexAppend<T>(s: seq<T>, x: T, p: T -> bool)
    ensures FirstIndex(s + [x], p) == match FirstIndex(s, p)
      case Some(k) => Some(k)
      case None => if p(x) then Some(|s|) else None
  {
    if s != [] {
      assert (s + [x])[1..] == s[1..] + [x];
      FirstIndexAppend(s[1..], x, p);
    }
  }

  lemma ConcatAssoc<T>(a: seq<T>, b: seq<T>, c: seq<T>)
    ensures a + (b + c) == (a + b) + c
  {
  }

  /** `s` with the element at position `i` unlinked. */
  function RemoveAt<T>(s: seq<T>, i: nat): (r: seq<T>)
    requires i < |s|
    ensures |r| == |s| - 1
    ensures forall j :: 0 <= j < i ==> r[j] == s[j]
    ensures forall j :: i <= j < |r| ==> r[j] == s[j + 1]
  {
    s[..i] + s[i + 1..]
  }

  /** The elements of `s` satisfying `p`, in their original order. */
  function Filter<T>(s: seq<T>, p: T -> bool): (r: seq<T>)
    ensures |r| <= |s|
    ensures forall i :: 0 <= i < |r| ==> r[i] in s && p(r[i])
    ensures forall i :: 0 <= i < |s| && p(s[i]) ==> s[i] in r
  {
    if s == [] then []
    else if p(s[0]) then [s[0]] + Filter(s[1..], p)
    else Filter(s[1..], p)
  }

  /** No element occurs twice. */
  predicate NoDuplicates<T(==)>(s: seq<T>) {
    forall i, j :: 0 <= i < j < |s| ==> s[i] != s[j]
  }

  /** Joining two duplicate-free sequences that share no element gives a duplicate-free sequence. */
  lemma NoDuplicatesConcat<T>(a: seq<T>, b: seq<T>)
    requires NoDuplicates(a) && NoDuplicates(b)
    requires forall k :: 0 <= k < |b| ==> b[k] !in a
    ensures NoDuplicates(a + b)
  {
    var u := a + b;
    forall i, j | 0 <= i < j < |u|
      ensures u[i] != u[j]
    {
      if i < |a| && j >= |a| {
        assert u[j] == b[j - |a|];
      } else if i >= |a| {
        assert u[i] == b[i - |a|] && u[j] == b[j - |a|];
      }
    }
  }
}
